=== FILE: README.md ===
# ckanta core, modelled in Dafny

ckanta is a command-line client for the action API of a CKAN data portal. This project
models its core as pure functions over immutable values, and proves what that core
promises its callers:

- **Configuration** (`IniFiles`, `Common`, `Settings`): the parsed INI file is a map from
  section to key/value pairs. `get_config`, `get_instance_config` and `config.get_instance`
  read values from it, fail with `ConfigError` on a missing section and give `None` for a
  missing key.
- **API client** (`Common`): `ApiClient` normalises the slashes of its base URL and its
  action namespace. It builds `<urlbase>/<subpath>/<action>` and issues a GET or a POST.
  The POST carries a JSON payload, and the client asserts that the payload is present
  before anything is sent. The HTTP transport is an oracle parameter, `Transport`.
- **Commands** (`Commands`, `Upload`): target-object validation (`dataset` becomes
  `package`) and the list, show and membership commands. Also the dataset upload: every
  CSV row is posted once per owner organisation, and the run ends with a
  `{total, passed, failed}` summary.
- **Tables** (`Tables`): `TableDef` derives missing column headers and projects API
  records onto its columns.
- **Older command layer** (`Organizations`, `Datasets`): `OrganizationCommand` (listing,
  paging, show, create), `OrganizationDownloader`, the payload step of
  `organization upload`, `DatasetCommand` and the selection step of `dataset dump`. These
  go through the older client's `post(action, payload)`, an oracle parameter `Poster`.
  `ckanta/actions.py` and `ckanta/deprecated/actions.py` contain the same
  `OrganizationCommand`; one model covers both.
- **Python semantics** (`Sorting`, `Strings`, `Wrappers`, `Json`, `Errors`):
  - `sorted` on strings (code-point order, a proper prefix first) and slicing with
    negative and out-of-range bounds;
  - `str.split`, `str.join`, `str.replace` and ASCII `str.title`;
  - list comprehensions that stop at the first exception;
  - the exceptions themselves, as an `Error` value.

Two behaviours of the source are modelled as written and stated as lemmas:

- `UploadCommand` fills a CSV row in place and rebuilds that same row for each owner
  organisation. Later payloads therefore keep the `owner_org`, `locations` and `name`
  set for the first organisation, and a second state organisation puts its name in front
  of an already prefixed title.
- `organization upload` reads `data_dict['name']` again inside its `except` branch, so a
  row without a `name` stops the whole upload.

## Model

| member | source | states |
|---|---|---|
| Wrappers.MapResults | ckanta/actions.py:129-132 | mapping a raising function over a list succeeds exactly when every element succeeds, and then yields their results in order; otherwise the error is that of the first failing element, all earlier elements having succeeded |
| Json.Field | ckanta/actions.py:120 | indexing a reply by key succeeds exactly on a dict holding the key; otherwise it raises `KeyError` for a dict and `TypeError` for anything else |
| Json.NameList | ckanta/actions.py:123 | a value reads as a list of names exactly when it is a list of strings, and then the names appear in the same order |
| IniFiles.Sections | ckanta/common.py:48 | the listed sections are the parsed ones minus the parser's `DEFAULT` section |
| IniFiles.Lookup | ckanta/common.py:52-53 | a section key reads as its own value, falling back to the `DEFAULT` section; it is `None` exactly when neither section holds the key |
| Sorting.LexLeTotal | ckanta/actions.py:123 | Python's string order is total |
| Sorting.LexLeTransitive | ckanta/actions.py:123 | Python's string order is transitive |
| Sorting.LexLeAntisymmetric | ckanta/actions.py:123 | two strings ordered both ways are equal |
| Sorting.Insert | ckanta/actions.py:123 | inserting into an ordered list keeps it ordered and adds exactly the one element |
| Sorting.Sort | ckanta/actions.py:123 | `sorted(names)` is ordered and a permutation of its input |
| Sorting.SortedPermutationUnique | ckanta/actions.py:123 | two ordered permutations of the same names are equal, so any sorting algorithm gives the modelled result |
| Sorting.SliceIndex | ckanta/actions.py:131 | a slice bound lands in `[0, len]`: in-range bounds are kept and bounds past the end are clamped to it |
| Sorting.Slice | ckanta/actions.py:131 | `s[lo:hi]` is the contiguous run `s[lo..min(hi, len)]` for an in-range start, is empty when the start is at or past the end or when `0 <= hi <= lo`, and is never longer than `hi - lo` for non-negative ordered bounds |
| Sorting.SliceConcat | ckanta/deprecated/actions.py:317 | adjacent slices join without gap or overlap: `s[a:b] + s[b:c] == s[a:c]` |
| Sorting.SliceOfSorted | ckanta/actions.py:131 | a slice of an ordered list is ordered and holds only its elements |
| Sorting.SortedSlice | ckanta/actions.py:123-131 | a slice of the sorted names is exactly the run `sorted(names)[lo..min(hi, len)]` for an in-range start and empty for a start at or past the end; it is ordered, holds only given names and is no longer than its bounds allow |
| Sorting.SortedSlicesAdjoin | ckanta/deprecated/actions.py:312-317 | adjacent slices of the sorted names join into the slice spanning both |
| Strings.Split | ckanta/__init__.py:21-22 | `s.split(sep)` yields at least one piece and no piece contains the separator |
| Strings.JoinSplit | ckanta/__init__.py:21-22 | joining the split pieces with the separator gives back the string |
| Strings.SplitJoin | ckanta/__init__.py:21-22 | splitting the join of separator-free pieces gives back the pieces |
| Strings.DeleteAll | ckanta/commands.py:195 | removing a pattern never lengthens the string; `Strings.DeleteAllLeading` and `Strings.DeleteAllKeepsNonLeading` together fix the result at every position |
| Strings.DeleteAllLeading | ckanta/commands.py:195 | an occurrence of the pattern at the start is removed, and the rest is treated as if it stood alone |
| Strings.DeleteAllKeepsNonLeading | ckanta/commands.py:195 | a character that does not begin an occurrence of the pattern is kept, and the rest is treated as if it stood alone |
| Strings.DeleteAllAbsent | ckanta/commands.py:195 | a name that does not contain `national:` is left unchanged |
| Strings.ReplaceChar | ckanta/__init__.py:30 | `col.replace('_', ' ')` changes exactly the underscores, in place |
| Strings.TitleFrom | ckanta/__init__.py:30 | title case keeps the length and every non-letter; a letter is upper-case exactly when the character before it is not a letter |
| Strings.TitleIdempotent | ckanta/__init__.py:30 | title-casing a title-cased string changes nothing |
| Common.EffectiveSection | ckanta/common.py:47 | an empty or missing section name falls back to `ckanta`; a non-empty name is used as given |
| Common.GetConfig | ckanta/common.py:44-53 | the lookup succeeds exactly when the effective section is listed, gives the section's value or `None`, and otherwise raises `ConfigError` |
| Common.GetInstanceConfig | ckanta/common.py:56-68 | the lookup succeeds exactly when `instance:<name>` is listed, and then gives its `urlbase` and `apikey` as an unnamed `Config` |
| Common.InstanceRoundTrip | ckanta/common.py:56-68 | writing an instance section and reading it back gives the written values |
| Common.ConfigName | ckanta/common.py:27-28 | a `Config` built without a name has none; a given name is kept |
| Common.DropTrailingSlash | ckanta/common.py:80-81 | exactly one trailing slash is removed when present; otherwise the text is kept |
| Common.DropLeadingSlash | ckanta/common.py:84-85 | exactly one leading slash is removed when present; otherwise the text is kept |
| Common.EffectiveSubpath | ckanta/common.py:83-89 | the namespace is never empty: a missing or emptied namespace becomes `api/3/action`; otherwise the given namespace is the result with one leading slash, and nothing else, removed exactly when it had one and then one trailing slash removed exactly when one remained |
| Common.NewApiClient | ckanta/common.py:79-91 | the client keeps the key, drops one trailing slash from the base URL and keeps the effective namespace |
| Common.BuildActionUrl | ckanta/common.py:93-99 | the URL is base, namespace and action joined by single slashes, with nothing else added |
| Common.ActionUrlInjective | ckanta/common.py:93-99 | distinct actions never share a URL |
| Common.CoreHasNoEdgeSlashes | ckanta/common.py:83-87 | stripping one slash from each side of a namespace that has at most one on each side leaves none at either edge |
| Common.BaseHasNoTrailingSlash | ckanta/common.py:80-81 | a base URL with at most one trailing slash keeps none |
| Common.SubpathHasNoEdgeSlashes | ckanta/common.py:83-89 | a namespace with at most one slash on each side keeps none |
| Common.ClientJoinsHaveSingleSlashes | ckanta/common.py:79-99 | for such inputs no join of the action URL doubles a slash |
| Common.DefaultActionUrl | tests/test_common.py:33-39 | the default client under `http://localhost` builds `http://localhost/api/3/action/group_list` |
| Common.BuildRequest | ckanta/common.py:107-116 | every request carries the API key and goes to the action URL; a POST without payload is an `AssertionError`; a POST carries its payload and the JSON content type; a GET has neither |
| Common.Call | ckanta/common.py:101-119 | a POST without payload raises `AssertionError`; every other call returns the transport's answer to the built request |
| Common.PostWithoutPayloadIssuesNoRequest | tests/test_common.py:41-44 | the payload-less POST fails identically whatever the transport would answer, so no request is sent |
| Common.GetIgnoresPayload | ckanta/common.py:109-110 | a GET sends the same request whatever payload is passed |
| Settings.GetInstance | ckanta/config.py:28-40 | the lookup succeeds exactly when `instance:<name>` is present; an unknown instance raises `ConfigError` naming the section; otherwise it gives the section's `urlbase` and `apikey` |
| Settings.KnownInstanceValues | ckanta/config.py:36-40 | a section holding both keys reads back exactly their values |
| Settings.MissingKeyIsNone | ckanta/config.py:37-39 | a key missing from the section reads as `None` rather than failing |
| Settings.FixtureLookups | tests/test_config.py:11-18 | for the test fixture, `local` is found with its values and `x-local` raises |
| Tables.GivenHeaders | ckanta/__init__.py:20-22 | missing headers and an empty string are none; a non-empty joined string is split into colon-free pieces whose join is the string; a list is kept |
| Tables.Fit | ckanta/__init__.py:24-26 | the headers are cut or padded with `''` to exactly one per column, keeping those given |
| Tables.DerivedHeader | ckanta/__init__.py:30 | a derived header has the column's length, turns each `_` into a space, keeps other non-letters, and keeps each letter but upper-cases it exactly when it is first or follows a non-letter |
| Tables.FillHeaders | ckanta/__init__.py:28-30 | each non-empty header is kept and each empty one is derived from its column |
| Tables.NewTableDef | ckanta/__init__.py:19-31 | the definition has one header per column: the given non-empty header at that position, else the derived one |
| Tables.DefaultHeadersDerived | ckanta/__init__.py:20-30 | without headers, every header is derived from its column |
| Tables.HeadersNonEmpty | ckanta/__init__.py:28-30 | non-empty columns never get an empty header |
| Tables.ExtractData | ckanta/__init__.py:33-38 | projection succeeds exactly when every record has every column, giving one row per record in order with the headers unchanged; otherwise it raises `KeyError` for the first missing column of the first incomplete record |
| Tables.FirstMissingUnique | ckanta/__init__.py:35-36 | the first missing cell, in record-then-column order, is unique, so the `KeyError` is determined |
| Commands.Normalise | ckanta/commands.py:39-41 | `dataset` is renamed and every other object is kept |
| Commands.ValidateObject | ckanta/commands.py:26-41 | validation succeeds exactly when `object` names a target, raising `AssertionError` otherwise; it renames `dataset` to `package` and changes nothing else |
| Commands.Wrap | ckanta/commands.py:90-93 | a client failure is re-raised as `CommandError` with the failure as its cause; a success passes through |
| Commands.NewListCommand | ckanta/commands.py:44-47 | a list command is built exactly for the four list targets, and it keeps exactly the validated args, with `dataset` renamed `package` |
| Commands.ListDefaults | ckanta/commands.py:49-75 | each of package, group, organization and user has a default payload, and no other object has one |
| Commands.Overlay | ckanta/commands.py:49-75 | the payload holds the defaults and every caller argument but `object`, with the caller's values winning |
| Commands.ListPlan | ckanta/commands.py:77-86 | the plan exists exactly when a payload builder exists and is otherwise a `CommandError`; it calls `<object>_list` with the object's default payload overlaid by the caller's other args, and the payload has no `object` key |
| Commands.ListBuilderAlwaysFound | ckanta/commands.py:81-84 | every validated list command finds its payload builder |
| Commands.ListGroupDefaults | ckanta/commands.py:49-63 | groups and organisations are listed with `sort` set to `name asc` and `all_fields` set to `False`, unless the caller passes those args |
| Commands.ListPayloadPrecedence | ckanta/commands.py:54 | a caller argument overrides the object's default in the list payload |
| Commands.DatasetListScenario | ckanta/commands.py:65-68 | listing datasets calls `package_list` with exactly the caller's other arguments and returns the response unchanged on success |
| Commands.ListExecute | ckanta/commands.py:77-94 | the list command succeeds exactly when the planned call does, returns its response, and re-raises a failed call as `CommandError('API request failed.')` with the client's error as cause |
| Commands.NewShowCommand | ckanta/commands.py:102-107 | a show command is built exactly when the object is valid and `id` is present and not `None`, and it keeps exactly the validated args |
| Commands.ShowPlan | ckanta/commands.py:112-117 | a show calls `<object>_show` with a payload holding only the id |
| Commands.ShowExecute | ckanta/commands.py:112-122 | the show command succeeds exactly when its call does, returns the response, and re-raises a failed call as `CommandError('API request failed.')` with the client's error as cause |
| Commands.NewMembershipCommand | tests/test_commands.py:8-13 | the membership command carries `object` set to `::list`, and the given user and flag |
| Commands.MembershipQueries | ckanta/commands.py:143 | organisations are always queried first; groups are queried second exactly when asked for |
| Commands.MembershipExecute | ckanta/commands.py:135-151 | membership succeeds exactly when every query succeeds, giving the responses in query order; the first failing query stops the loop, and its error becomes the cause of `CommandError('API request failed.')` |
| Upload.NewUploadCommand | ckanta/commands.py:178-189 | an upload command is built exactly for `dataset` with an `infile`; its args are the caller's with the object rewritten to `package`, so `owner_orgs` and every other arg are kept |
| Upload.NormOrg | ckanta/commands.py:195 | normalising an organisation name never lengthens it |
| Upload.NormOrgStripsNationalKey | ckanta/commands.py:195 | `national:<name>` normalises to `<name>`, and a name without `national:` is kept |
| Upload.SetDefault | ckanta/commands.py:198-199 | `setdefault` never overwrites an existing value, adds the key only when absent, and leaves every other key as it was |
| Upload.Retitled | ckanta/commands.py:206-211 | a state organisation's name is put in front of the title; a national organisation's title is kept |
| Upload.FillDefaults | ckanta/commands.py:213-215 | `type`, `state` and `private` take their defaults only where absent, and every other cell is left as it was |
| Upload.BuildPackagePayload | ckanta/commands.py:202-221 | building succeeds exactly when the row has a title and the organisation is national or a known state; for a state organisation a missing title or an unknown state raises `KeyError`, and for a national one a missing title fails in `slugify(None)` with a `TypeError` |
| Upload.BuiltFields | ckanta/commands.py:206-216 | the built title, `name` (the slug of the final title where absent), `type`, `state` and `private` |
| Upload.BuiltFrame | ckanta/commands.py:202-221 | apart from `title`, `type`, `state`, `private` and `name`, the built row has exactly the cells of the input row |
| Upload.BuiltKeepsOtherCells | ckanta/commands.py:202-216 | every other cell of the row is left as it was |
| Upload.ToPayload | ckanta/commands.py:218-220 | the payload holds every cell plus `groups`, the one-element list naming the row's sector or `''` |
| Upload.FillOwner | ckanta/commands.py:198-199 | `owner_org` and `locations` default to the normalised organisation name |
| Upload.FillOwnerKeeps | ckanta/commands.py:198-199 | filling the owner leaves every other cell as it was |
| Upload.OrgPayloads | ckanta/commands.py:197-200 | a row yields one payload per owner organisation, each with a title and a name |
| Upload.OrgPayloadsOk | ckanta/commands.py:197-211 | a row's payloads can be built exactly when it has a title and every organisation is national or a known state, or there are no organisations |
| Upload.PayloadsShareFirstOwner | ckanta/commands.py:196-200 | every payload of a row carries the row's own owner and locations, or else those of the first organisation |
| Upload.Payloads | ckanta/commands.py:191-200 | one named payload per (row, owner organisation) pair, so rows × organisations in all |
| Upload.PayloadsStep | ckanta/commands.py:196-200 | the first row's payloads come before those of the remaining rows |
| Upload.PayloadsPairRowsWithOrgs | ckanta/commands.py:196-200 | rows form the outer loop and organisations the inner one: payload number i × (number of organisations) + j is the one built for row `i` and organisation `j` |
| Upload.PayloadsFailAtFirstBadRow | ckanta/commands.py:196-200 | the upload fails with the error of the first row whose payloads cannot be built |
| Upload.PayloadsOkEachRow | ckanta/commands.py:196-200 | the payloads of the upload can be built exactly when those of every row can |
| Upload.PayloadsOk | ckanta/commands.py:191-211 | the payloads can all be built exactly when every row has a title and every organisation is national or a known state, or there is nothing to build |
| Upload.SecondOrgKeepsFirstOwner | ckanta/commands.py:196-216 | with two state organisations, the second payload keeps the first's `owner_org` and `name` |
| Upload.SecondOrgTitlePrefixedTwice | ckanta/commands.py:206-211 | with two state organisations, the second title carries both state names |
| Upload.CountPassed | ckanta/commands.py:252 | no more payloads pass than were posted |
| Upload.PassedPlusFailed | ckanta/commands.py:257-263 | every payload is counted exactly once, as passed or as failed |
| Upload.RunBatch | ckanta/commands.py:246-257 | every payload is posted and reported with one `+`/`x` line in order; failures do not stop the loop, and `failed` is `total - passed` |
| Upload.OwnerOrgs | ckanta/commands.py:193 | the organisations are the `owner_orgs` list when given, and none when absent |
| Upload.Execute | ckanta/commands.py:223-264 | without `infile` the upload raises `KeyError`, and for a non-package object it raises `CommandError`; otherwise it succeeds exactly when all payloads can be built, and its summary counts every payload with the successful creates as `passed` and the rest as `failed` |
| Organizations.Unwrap | ckanta/actions.py:120 | the reply's `result` is read exactly when the reply is a dict holding it |
| Organizations.NewOrganizationCommand | ckanta/actions.py:106-109 | the kind is `group` exactly for a group command and `organization` otherwise |
| Organizations.ActionsFollowType | ckanta/actions.py:114-158 | list, show and create use `<kind>_list`, `<kind>_show` and `<kind>_create` |
| Organizations.ShowPayload | ckanta/actions.py:144-152 | the show payload holds the id, plus the four `include_*` flags set to `False` exactly when bare |
| Organizations.Show | ckanta/actions.py:141-155 | show succeeds exactly when the post and the `result` lookup do, wraps the record as `{'data': [record]}`, and propagates a post failure |
| Organizations.EffectivePageNo | ckanta/actions.py:125 | page 0 means page 1; any other number is kept |
| Organizations.EffectivePageSize | ckanta/actions.py:126 | size 0 means the default size; any other size is kept |
| Organizations.Window | ckanta/actions.py:123-131 | a page window is ordered, holds only listed names, and is no longer than a positive page size |
| Organizations.WindowIsSortedRun | ckanta/actions.py:123-131 | a window whose start lies within the names is the run of sorted names from there, cut at the page size or at the end |
| Organizations.WindowEmptyExactlyPastEnd | ckanta/actions.py:125-131 | a page is empty exactly when it starts at or past the last name |
| Organizations.FirstPageStartsAtOffset | ckanta/actions.py:125-127 | page 1, and page 0 read as page 1, start at the offset |
| Organizations.NextPageStart | ckanta/actions.py:127 | the next page starts one page size further on |
| Organizations.PagesStartAfterOffset | ckanta/actions.py:127 | from page 1 on, with a positive size, no page starts before the offset |
| Organizations.ConsecutivePagesAdjoin | ckanta/actions.py:123-131 | two consecutive pages, together, are the one double-size page starting where the first does: no name is skipped or repeated |
| Organizations.List | ckanta/actions.py:111-139 | simple mode returns the listed names as given; otherwise the list succeeds exactly when the names are strings and every record of the window can be shown, giving them in name order along with the effective pager; each failure, of the post, the lookup, the names or a show, is raised as is |
| Organizations.ListPageBounded | ckanta/actions.py:125-132 | a page holds one record per name of its window, and at most the page size |
| Organizations.NewDownloader | ckanta/actions.py:167-173 | a downloader is built exactly for `group` and `organization`, and any other kind raises `AssertionError` |
| Organizations.DownloaderListsAsCommand | ckanta/actions.py:175-179 | the downloader posts what the command of the same kind posts in simple mode |
| Organizations.Extras | ckanta/actions.py:255-258 | the extras list one `{key, value}` pair per extra column, in order, or raise `KeyError` for the first missing column |
| Organizations.UploadPayload | ckanta/actions.py:250-258 | the payload holds every column except the excluded ones, plus `extras` for an organisation; it fails exactly when an organisation row lacks an extra column |
| Organizations.UploadRow | ckanta/actions.py:260-265 | a row completes exactly when its payload is built and it has `name`; its result is whether the create succeeded |
| Organizations.GroupUploadNeedsOnlyNames | ckanta/actions.py:248-265 | a group upload completes exactly when every row has a `name` |
| Organizations.OrganizationUploadNeedsExtras | ckanta/actions.py:248-265 | an organisation upload completes exactly when every row has `name`, `code`, `slogan` and `website_url` |
| Datasets.DatasetList | ckanta/deprecated/actions.py:169-174 | the listing succeeds exactly when the post and the `result` lookup do, giving `{'data': names}`; a post failure propagates |
| Datasets.PopAllRemovesExactly | ckanta/deprecated/actions.py:185-187 | popping a list of keys removes exactly those keys, present or not, and keeps every other entry |
| Datasets.Strip | ckanta/deprecated/actions.py:180-187 | a shown record keeps exactly its fields other than the five stripped ones, with their values |
| Datasets.StripIdempotent | ckanta/deprecated/actions.py:185-187 | stripping twice is stripping once |
| Datasets.StripKeepsCleanRecord | ckanta/deprecated/actions.py:185-187 | a record without the stripped fields is unchanged |
| Datasets.DatasetShow | ckanta/deprecated/actions.py:176-191 | show succeeds exactly when the post succeeds and its `result` is a dict, giving `{'data': [stripped record]}`; a post failure propagates |
| Datasets.DumpSelection | ckanta/deprecated/actions.py:312-317 | the selection is exactly the run `sorted(names)[offset..min(offset + limit, len)]` for an in-range offset and empty past the end; it is ordered, holds only listed names, and has at most `limit` names |
| Datasets.DumpWindowsAdjoin | ckanta/deprecated/actions.py:317 | dumps over adjacent windows together select the one window spanning both |
| Datasets.DumpWindowsOrdered | ckanta/deprecated/actions.py:317 | every name of a dump comes before every name of the dump at the next offset, so no name is selected twice |
| Datasets.Dump | ckanta/deprecated/actions.py:297-319 | a failed listing ends the dump quietly with its cause; names that are not a list of strings raise; an empty listing dumps nothing; otherwise the selection is shown |
| Datasets.MapShown | ckanta/deprecated/actions.py:318 | showing succeeds exactly when every selected dataset can be shown, giving one record per name in order |
| Datasets.DumpBounded | ckanta/deprecated/actions.py:317-318 | a successful dump shows at most `limit` records, each wrapped as `{'data': [record]}` with no stripped field |

## Left out

- HTTP, JSON encoding and decoding, and `raise_for_status`: the transport is the
  `Transport` oracle for the new client and `Poster` for the older one.
- File I/O: `read_config` and `config.read` are not modelled; the model starts from the
  parsed configuration. `csv.DictReader` is not modelled either; rows arrive as maps.
- `persist_csv` and the CSV writing in `organization download` and `dataset dump` are
  output only. That includes the `IndexError` `persist_csv` raises for an empty page or
  an empty dump.
- Logging, `print`, `click` output and the whole CLI (`ckanta/cli/__init__.py`) are
  presentation around the commands and are not modelled.
- The older client's URL joining (`ApiClient.from_conf`, `_build_url`) and the
  environment-based configuration are left out. The paths into them call code that is
  not part of this model.
- `slugify` is the parameter `slug`. The parsing of the `national-states` setting is left
  out, and its result is the parameter `states`, a map from slug to state name.
- `dataset_upload` of `ckanta/deprecated/actions.py` is left out: it relies on
  `ast.literal_eval` of CSV cells, which has no counterpart here.
- Strings.TitleFrom: `str.title` is modelled on ASCII letters only; other characters
  count as non-letters and are kept.
- Json.NameList: `sorted` over a list holding non-strings, or over a non-list, is
  modelled as one `TypeError`. Python may accept some of these, such as a dict's keys or
  a list of numbers.
- Datasets.DatasetShow: a `result` that is not a dict is modelled as a `TypeError`.
  Python raises `AttributeError` or `TypeError` depending on its type.
- Upload.OwnerOrgs: the caller must pass `owner_orgs` as a list of strings; any other
  type is excluded by the precondition rather than modelled.
- Upload.Execute: the payload generator is modelled as building every payload before the
  first create call. When a later row cannot be built, the creates already posted for
  earlier rows are therefore not visible in the model's error result. The summary of a
  completed upload is the same.
- `ApiClient` with `urlbase` set to `None` is left out (the `urlbase and` guard); the
  base URL is a string.
- Common.NewApiClient: the key is a string. A configured instance without `apikey` reads
  as `None`, and the command-line client then sends the header `Authorization: None`;
  the model has no counterpart of that `None` key.
- Commands.NewMembershipCommand: the command's context is not modelled, so the
  `AttributeError` raised for a context without `client` has no counterpart.
- IniFiles.Lookup: values are returned as stored. `ConfigParser`'s basic interpolation is
  not modelled: it would expand `%(key)s` and raise on a lone `%`, for example in a
  URL-encoded `urlbase` or `apikey`. The lower-casing of option names is not modelled
  either: the map's keys are taken as already normalised, and every caller in the core
  asks with a lower-case literal, apart from `get_config`'s caller-given name.
- Commands.ListPlan: `execute` pops `object`, `id` and `owner_orgs` out of the command's
  own args, so a second `execute` on the same command raises `KeyError`. The model's
  commands are immutable values, and each plan starts from the validated args. The same
  holds for `Commands.ShowPlan` and `Upload.OwnerOrgs`.
- A lookup leaves the configuration unchanged. This needs no lemma: every lookup is a
  pure function of an immutable map.
- `UserCommand`, `UserMembershipCommand` and `CommandBase` of `ckanta/__init__.py` are
  left out. They are another copy of the older client's GET/POST plumbing, which
  sits behind the `Poster` oracle.
- Membership grants, purges and membership roles are not in `ckanta/commands.py`, so
  nothing models them. The command layer has only the list, show, membership and upload
  commands.
- The test modules import `get_config_instance` from `ckanta/common.py` and `ActionDef`
  from `ckanta`, and neither module defines them. The tests are modelled against
  `get_instance_config` and `config.get_instance`.
- Python slicing is modelled in full, negative bounds included. The bounds and adjoining
  lemmas are stated for non-negative offsets and sizes, which is how the commands use
  them.
- Arbitrary-precision integers: the page arithmetic is Python's unbounded `int`, so no
  overflow is modelled.

=== FILE: commands.dfy ===
/** The command layer of `ckanta/commands.py`: target-object validation, and the list,
    show and membership commands. */
module Commands {
  import opened Wrappers
  import opened Errors
  import opened Json
  import opened Common

  /** The keyword arguments a command is built from. */
  type Args = map<string, Value>

  /** An API call a command is about to make: the action and its payload. */
  datatype Plan = Plan(action: string, payload: Value)

  const ListTargets: seq<string> := ["dataset", "group", "organization", "user"]
  const ShowTargets: seq<string> := ["dataset", "group", "organization", "user"]

  /** The API's internal name for an object: datasets are `package`s. */
  function Normalise(target: string): (r: string)
    ensures r != "dataset"
    ensures target != "dataset" ==> r == target
  {
    if target == "dataset" then "package" else target
  }

  /** The args name their target object as a string. */
  predicate NamesObject(args: Args) {
    "object" in args && args["object"].Str?
  }

  /** `CommandBase._validate_action_args`: `object` must be present and one of the command's
      targets (an `AssertionError` otherwise); an accepted `dataset` becomes `package` and
      nothing else changes. */
  function ValidateObject(targets: seq<string>, args: Args): (r: Result<Args, Error>)
    ensures r.Ok? <==> NamesObject(args) && args["object"].s in targets
    ensures r.Err? ==> r.error.AssertionError?
    ensures r.Ok? ==> r.value.Keys == args.Keys
    ensures r.Ok? ==> r.value["object"] == Str(Normalise(args["object"].s))
    ensures r.Ok? ==> forall k :: k in args && k != "object" ==> r.value[k] == args[k]
  {
    if "object" !in args then Err(AssertionError("Target object to be listed required"))
    else if !(args["object"].Str? && args["object"].s in targets) then
      Err(AssertionError("Invalid target object"))
    else if args["object"].s == "dataset" then Ok(args["object" := Str("package")])
    else Ok(args)
  }

  /** Re-raises a client failure as `CommandError`, keeping it as the cause. */
  function Wrap(r: Result<Value, Error>): (w: Result<Value, Error>)
    ensures r.Ok? ==> w == r
    ensures r.Err? ==> w == Err(CommandError("API request failed.", Some(r.error)))
  {
    if r.Ok? then r else Err(CommandError("API request failed.", Some(r.error)))
  }

  // ---------------------------------------------------------------- ListCommand

  /** A validated list command. */
  datatype ListCommand = ListCommand(args: Args)

  function NewListCommand(args: Args): (r: Result<ListCommand, Error>)
    ensures r.Ok? <==> NamesObject(args) && args["object"].s in ListTargets
    ensures r.Ok? ==> NamesObject(r.value.args) && r.value.args["object"].s in ["package", "group", "organization", "user"]
    ensures r.Ok? ==> r.value.args == ValidateObject(ListTargets, args).value
  {
    var validated :- ValidateObject(ListTargets, args);
    Ok(ListCommand(validated))
  }

  /** The per-object default payloads, looked up by object name; `None` stands for a missing
      payload builder. */
  function ListDefaults(target: string): (r: Option<map<string, Value>>)
    ensures r.Some? <==> target in ["package", "group", "organization", "user"]
    ensures target == "package" ==> r == Some(map[])
    ensures target == "user" ==> r == Some(map["all_fields" := Bool(false)])
    ensures target == "group" || target == "organization" ==>
      r == Some(map["sort" := Str("name asc"), "all_fields" := Bool(false)])
  {
    if target == "group" || target == "organization" then
      Some(map["sort" := Str("name asc"), "all_fields" := Bool(false)])
    else if target == "user" then Some(map["all_fields" := Bool(false)])
    else if target == "package" then Some(map[])
    else None
  }

  /** The defaults overlaid by the caller's remaining args (`object` already popped). */
  function Overlay(defaults: map<string, Value>, args: Args): (p: map<string, Value>)
    ensures "object" in p <==> "object" in defaults
    ensures forall k :: k in p <==> (k in defaults || (k in args && k != "object"))
    ensures forall k :: k in args && k != "object" ==> p[k] == args[k]
    ensures forall k :: k in defaults && (k !in args || k == "object") ==> p[k] == defaults[k]
  {
    defaults + (args - {"object"})
  }

  /** `ListCommand.execute` up to the call: action `<object>_list` and the overlaid payload,
      or a `CommandError` when no payload builder exists. */
  function ListPlan(cmd: ListCommand): (r: Result<Plan, Error>)
    requires NamesObject(cmd.args)
    ensures r.Ok? <==> ListDefaults(cmd.args["object"].s).Some?
    ensures r.Err? ==> r.error.CommandError? && r.error.cause.None?
    ensures r.Ok? ==> r.value.action == cmd.args["object"].s + "_list"
    ensures r.Ok? ==> r.value.payload.Object?
    ensures r.Ok? ==> "object" !in r.value.payload.fields
    ensures r.Ok? ==> r.value.payload == Object(Overlay(ListDefaults(cmd.args["object"].s).value, cmd.args))
  {
    var target := cmd.args["object"].s;
    match ListDefaults(target)
    case None => Err(CommandError("Payload builder method not found: _build_" + target + "_payload", None))
    case Some(defaults) => Ok(Plan(target + "_list", Object(Overlay(defaults, cmd.args))))
  }

  /** Every object a list command accepts has a payload builder once normalised. */
  lemma ListBuilderAlwaysFound(args: Args)
    requires NewListCommand(args).Ok?
    ensures ListPlan(NewListCommand(args).value).Ok?
  {
  }

  /** Groups and organisations are listed sorted by name and without full records unless
      the caller says otherwise. */
  lemma ListGroupDefaults(args: Args)
    requires NewListCommand(args).Ok?
    requires args["object"] == Str("group") || args["object"] == Str("organization")
    ensures var p := ListPlan(NewListCommand(args).value).value.payload;
      && ("sort" !in args ==> "sort" in p.fields && p.fields["sort"] == Str("name asc"))
      && ("all_fields" !in args ==> "all_fields" in p.fields && p.fields["all_fields"] == Bool(false))
  {
  }

  /** The payload sent for a list: caller args win over the object's defaults. */
  lemma ListPayloadPrecedence(args: Args, key: string)
    requires NewListCommand(args).Ok?
    requires key in args && key != "object"
    ensures var p := ListPlan(NewListCommand(args).value).value.payload;
      key in p.fields && p.fields[key] == args[key]
  {
  }

  /** The end-to-end dataset scenario: `dataset` lists via `package_list`, the payload is
      exactly the caller's other args, and success returns the response unchanged. */
  lemma DatasetListScenario(args: Args, c: ApiClient, transport: Transport, asGet: bool)
    requires "object" in args && args["object"] == Str("dataset")
    ensures var p := ListPlan(NewListCommand(args).value).value;
      && p.action == "package_list"
      && p.payload == Object(args - {"object"})
      && (transport(BuildRequest(c, "package_list", p.payload, asGet).value).Ok? ==>
            (ListExecute(NewListCommand(args).value, c, transport, asGet)
             == transport(BuildRequest(c, "package_list", p.payload, asGet).value)))
  {
    var cmd := NewListCommand(args).value;
    assert cmd.args["object"].s + "_list" == "package_list";
    assert Overlay(map[], cmd.args) == args - {"object"};
  }

  /** `ListCommand.execute(as_get)`: the raw response of the planned call; a client failure
      is re-raised as `CommandError`. */
  function ListExecute(cmd: ListCommand, c: ApiClient, transport: Transport, asGet: bool := true): (r: Result<Value, Error>)
    requires NamesObject(cmd.args)
    ensures ListPlan(cmd).Err? ==> r == ListPlan(cmd).PropagateFailure()
    ensures ListPlan(cmd).Ok? ==>
      var p := ListPlan(cmd).value;
      && (r.Ok? <==> Call(c, transport, p.action, p.payload, asGet).Ok?)
      && (r.Ok? ==> r.value == Call(c, transport, p.action, p.payload, asGet).value)
    ensures r.Err? ==> r.error.CommandError?
    ensures ListPlan(cmd).Ok? ==>
      var p := ListPlan(cmd).value;
      var call := Call(c, transport, p.action, p.payload, asGet);
      call.Err? ==> r == Err(CommandError("API request failed.", Some(call.error)))
  {
    var plan :- ListPlan(cmd);
    Wrap(Call(c, transport, plan.action, plan.payload, asGet))
  }

  // ---------------------------------------------------------------- ShowCommand

  /** A validated show command. */
  datatype ShowCommand = ShowCommand(args: Args)

  /** `ShowCommand._validate_action_args`: the object check, then an `id` that is not `None`. */
  function NewShowCommand(args: Args): (r: Result<ShowCommand, Error>)
    ensures r.Ok? <==> NamesObject(args) && args["object"].s in ShowTargets && "id" in args && args["id"] != Null
    ensures r.Err? ==> r.error.AssertionError?
    ensures r.Ok? ==> NamesObject(r.value.args) && "id" in r.value.args && r.value.args["id"] == args["id"]
    ensures r.Ok? ==> r.value.args == ValidateObject(ShowTargets, args).value
  {
    var validated :- ValidateObject(ShowTargets, args);
    if "id" !in args || args["id"] == Null then Err(AssertionError("Target object Id required"))
    else Ok(ShowCommand(validated))
  }

  /** `ShowCommand.execute` up to the call: action `<object>_show` and the payload
      holding only the id. */
  function ShowPlan(cmd: ShowCommand): (p: Plan)
    requires NamesObject(cmd.args) && "id" in cmd.args
    ensures p.action == cmd.args["object"].s + "_show"
    ensures p.payload.Object? && p.payload.fields.Keys == {"id"}
    ensures p.payload.fields["id"] == cmd.args["id"]
  {
    Plan(cmd.args["object"].s + "_show", Object(map["id" := cmd.args["id"]]))
  }

  /** `ShowCommand.execute(as_get)`: the raw response; a client failure becomes `CommandError`. */
  function ShowExecute(cmd: ShowCommand, c: ApiClient, transport: Transport, asGet: bool := true): (r: Result<Value, Error>)
    requires NamesObject(cmd.args) && "id" in cmd.args
    ensures var p := ShowPlan(cmd);
      && (r.Ok? <==> Call(c, transport, p.action, p.payload, asGet).Ok?)
      && (r.Ok? ==> r.value == Call(c, transport, p.action, p.payload, asGet).value)
    ensures r.Err? ==> r.error.CommandError?
    ensures var p := ShowPlan(cmd);
      var call := Call(c, transport, p.action, p.payload, asGet);
      call.Err? ==> r == Err(CommandError("API request failed.", Some(call.error)))
  {
    var plan := ShowPlan(cmd);
    Wrap(Call(c, transport, plan.action, plan.payload, asGet))
  }

  // ---------------------------------------------------------------- MembershipCommand

  const MembershipVerb := "::list"
  const MembershipTargets: seq<string> := [MembershipVerb]
  const MembershipActions: seq<string> := ["organization_list_for_user", "group_list_authz"]

  datatype MembershipCommand = MembershipCommand(args: Args, userid: Value, checkGroup: bool)

  /** `MembershipCommand(context, userid, check_group=False)`: built with object `::list`,
      which always passes validation. The context is not modelled, so the model has no
      counterpart of the `AttributeError` a context without `client` raises first. */
  function NewMembershipCommand(userid: Value, checkGroup: bool := false): (r: MembershipCommand)
    ensures r.args == map["object" := Str(MembershipVerb)]
    ensures r.userid == userid && r.checkGroup == checkGroup
  {
    var validated := ValidateObject(MembershipTargets, map["object" := Str(MembershipVerb)]);
    MembershipCommand(validated.value, userid, checkGroup)
  }

  /** The actions queried: organisations always, groups only when asked for. */
  function MembershipQueries(checkGroup: bool): (r: seq<string>)
    ensures |r| >= 1 && r[0] == "organization_list_for_user"
    ensures checkGroup <==> |r| == 2
    ensures checkGroup ==> r[1] == "group_list_authz"
  {
    if checkGroup then MembershipActions else MembershipActions[..1]
  }

  /** Queries the actions in order with one payload; the first failure stops the loop and
      discards the results so far. */
  function QueryAll(c: ApiClient, transport: Transport, actions: seq<string>, payload: Value, asGet: bool): Result<seq<Value>, Error> {
    MapResults(actions, (action: string) => Call(c, transport, action, payload, asGet))
  }

  /** `MembershipCommand.execute(as_get)`: the user's organisations and, when asked, groups,
      in that order, all fetched with payload `{'id': userid}`; any failure becomes
      `CommandError`. */
  function MembershipExecute(cmd: MembershipCommand, c: ApiClient, transport: Transport, asGet: bool): (r: Result<seq<Value>, Error>)
    ensures var payload := Object(map["id" := cmd.userid]);
      var queries := MembershipQueries(cmd.checkGroup);
      && (r.Ok? <==> forall i :: 0 <= i < |queries| ==> Call(c, transport, queries[i], payload, asGet).Ok?)
      && (r.Ok? ==> (|r.value| == |queries| &&
                     forall i :: 0 <= i < |queries| ==> r.value[i] == Call(c, transport, queries[i], payload, asGet).value))
    ensures r.Err? ==> r.error.CommandError? && r.error.cause.Some?
    ensures var payload := Object(map["id" := cmd.userid]);
      var queries := MembershipQueries(cmd.checkGroup);
      r.Err? ==> exists k :: (
        && 0 <= k < |queries|
        && (forall m :: 0 <= m < k ==> Call(c, transport, queries[m], payload, asGet).Ok?)
        && Call(c, transport, queries[k], payload, asGet).Err?
        && r.error == CommandError("API request failed.", Some(Call(c, transport, queries[k], payload, asGet).error)))
  {
    var payload := Object(map["id" := cmd.userid]);
    match QueryAll(c, transport, MembershipQueries(cmd.checkGroup), payload, asGet)
    case Ok(results) => Ok(results)
    case Err(e) => Err(CommandError("API request failed.", Some(e)))
  }
}

=== FILE: common.dfy ===
/** The configuration lookups and the API client of `ckanta/common.py`. */
module Common {
  import opened Wrappers
  import opened Errors
  import opened Json
  import opened Strings
  import opened IniFiles

  /** `Config(urlbase, apikey, name=None)`: a value a section lacks is `None`. */
  datatype Config = Config(urlbase: Option<string>, apikey: Option<string>, name: Option<string> := None)

  const DefaultConfigSection := "ckanta"
  const DefaultInstance := "local"
  const InstancePrefix := "instance:"

  /** `section_name or 'ckanta'`: both `None` and the empty name fall back. */
  function EffectiveSection(sectionName: Option<string>): (r: string)
    ensures r != ""
    ensures sectionName.Some? && sectionName.value != "" ==> r == sectionName.value
  {
    if sectionName.Some? && sectionName.value != "" then sectionName.value else DefaultConfigSection
  }

  /** `get_config`: a value of the (default `ckanta`) section, `None` for a missing key,
      and a `ConfigError` for a missing section. */
  function GetConfig(cfg: Parsed, name: string, sectionName: Option<string> := None): (r: Result<Option<string>, Error>)
    ensures r.Ok? <==> EffectiveSection(sectionName) in Sections(cfg)
    ensures r.Ok? ==> r.value == Lookup(cfg, EffectiveSection(sectionName), name)
    ensures r.Err? ==> r.error.ConfigError?
  {
    var section := EffectiveSection(sectionName);
    if section !in Sections(cfg) then Err(ConfigError("Config section not found: " + section))
    else Ok(Lookup(cfg, section, name))
  }

  /** `get_instance_config`: the `instance:<name>` section read as an unnamed `Config`. */
  function GetInstanceConfig(cfg: Parsed, name: string := DefaultInstance): (r: Result<Config, Error>)
    ensures r.Ok? <==> InstancePrefix + name in Sections(cfg)
    ensures r.Err? ==> r.error.ConfigError?
    ensures r.Ok? ==> r.value.name.None?
    ensures r.Ok? ==> r.value.urlbase == Lookup(cfg, InstancePrefix + name, "urlbase")
    ensures r.Ok? ==> r.value.apikey == Lookup(cfg, InstancePrefix + name, "apikey")
  {
    var section := InstancePrefix + name;
    if section !in Sections(cfg) then Err(ConfigError("Config section not found: " + section))
    else Ok(Config(Lookup(cfg, section, "urlbase"), Lookup(cfg, section, "apikey")))
  }

  /** Writing an instance section and reading it back gives the written values. */
  lemma InstanceRoundTrip(cfg: Parsed, name: string, urlbase: string, apikey: string)
    ensures GetInstanceConfig(cfg[InstancePrefix + name := map["urlbase" := urlbase, "apikey" := apikey]], name)
         == Ok(Config(Some(urlbase), Some(apikey)))
  {
    var section := InstancePrefix + name;
    assert section != DefaultSection by {
      assert |section| >= |InstancePrefix| > |DefaultSection|;
    }
  }

  /** The default action namespace of the portal's API. */
  const ApiUrlSubpath := "api/3/action"

  /** An API client: base URL, key and action namespace, with the slashes at the joins
      already normalised. */
  datatype ApiClient = ApiClient(urlbase: string, apikey: string, actionSubpath: string)

  /** Drops one trailing `/`, if there is one. */
  function DropTrailingSlash(s: string): (r: string)
    ensures EndsWith(s, "/") ==> s == r + "/"
    ensures !EndsWith(s, "/") ==> r == s
  {
    if EndsWith(s, "/") then s[..|s| - 1] else s
  }

  /** Drops one leading `/`, if there is one. */
  function DropLeadingSlash(s: string): (r: string)
    ensures StartsWith(s, "/") ==> s == "/" + r
    ensures !StartsWith(s, "/") ==> r == s
  {
    if StartsWith(s, "/") then s[1..] else s
  }

  /** The client's action namespace: at most one leading and then at most one trailing `/`
      are removed, and a missing or emptied namespace falls back to `api/3/action`. */
  function EffectiveSubpath(actionSubpath: Option<string>): (r: string)
    ensures r != ""
    ensures actionSubpath.None? ==> r == ApiUrlSubpath
    ensures actionSubpath.Some? && DropTrailingSlash(DropLeadingSlash(actionSubpath.value)) == "" ==> r == ApiUrlSubpath
    ensures actionSubpath.Some? && DropTrailingSlash(DropLeadingSlash(actionSubpath.value)) != "" ==>
      exists lead: string, trail: string ::
        && |lead| <= 1 && |trail| <= 1
        && actionSubpath.value == lead + r + trail
        && (lead == "" || lead == "/")
        && (lead == "/" <==> StartsWith(actionSubpath.value, "/"))
        && (trail == "" || trail == "/")
        && (trail == "/" <==> EndsWith(DropLeadingSlash(actionSubpath.value), "/"))
  {
    if actionSubpath.Some? && actionSubpath.value != "" then
      var sp := actionSubpath.value;
      var lead := if StartsWith(sp, "/") then "/" else "";
      var mid := DropLeadingSlash(sp);
      var core := DropTrailingSlash(mid);
      var trail := if EndsWith(mid, "/") then "/" else "";
      assert sp == lead + core + trail;
      if core == "" then ApiUrlSubpath else core
    else ApiUrlSubpath
  }

  /** `ApiClient(urlbase, apikey, action_urlsubpath=None)`. */
  function NewApiClient(urlbase: string, apikey: string, actionSubpath: Option<string> := None): (c: ApiClient)
    ensures c.apikey == apikey
    ensures EndsWith(urlbase, "/") ==> urlbase == c.urlbase + "/"
    ensures !EndsWith(urlbase, "/") ==> c.urlbase == urlbase
    ensures c.actionSubpath == EffectiveSubpath(actionSubpath)
  {
    ApiClient(DropTrailingSlash(urlbase), apikey, EffectiveSubpath(actionSubpath))
  }

  /** `build_action_url`: base, namespace and action joined by single slashes. */
  function BuildActionUrl(c: ApiClient, action: string): (r: string)
    ensures StartsWith(r, c.urlbase + "/" + c.actionSubpath + "/")
    ensures EndsWith(r, "/" + action)
    ensures |r| == |c.urlbase| + |c.actionSubpath| + |action| + 2
  {
    var r := c.urlbase + "/" + c.actionSubpath + "/" + action;
    assert r[..|c.urlbase + "/" + c.actionSubpath + "/"|] == c.urlbase + "/" + c.actionSubpath + "/";
    assert r[|r| - |"/" + action|..] == "/" + action;
    r
  }

  /** The URL determines the action: distinct actions never share an endpoint. */
  lemma ActionUrlInjective(c: ApiClient, a1: string, a2: string)
    requires BuildActionUrl(c, a1) == BuildActionUrl(c, a2)
    ensures a1 == a2
  {
    var p := c.urlbase + "/" + c.actionSubpath + "/";
    assert BuildActionUrl(c, a1) == p + a1 && BuildActionUrl(c, a2) == p + a2;
    assert a1 == (p + a1)[|p|..] && a2 == (p + a2)[|p|..];
  }

  /** A namespace with at most one slash on each side, once stripped and still non-empty,
      starts and ends with something other than `/`. */
  lemma CoreHasNoEdgeSlashes(v: string)
    requires !StartsWith(v, "//") && !EndsWith(v, "//")
    requires DropTrailingSlash(DropLeadingSlash(v)) != ""
    ensures var core := DropTrailingSlash(DropLeadingSlash(v));
      core[0] != '/' && core[|core| - 1] != '/'
  {
    var mid := DropLeadingSlash(v);
    var core := DropTrailingSlash(mid);
    assert core[0] == mid[0];
    if StartsWith(v, "/") {
      assert mid == v[1..] && |v| >= 2;
      assert v[..2] == [v[0], v[1]];
    } else {
      assert mid == v;
      assert v[..1] == [v[0]];
    }
    if EndsWith(mid, "/") {
      assert core == mid[..|mid| - 1] && |mid| >= 2;
      assert mid[|mid| - 1..] == [mid[|mid| - 1]];
      assert v[|v| - |mid|..] == mid;
      assert v[|v| - 2..] == mid[|mid| - 2..];
      assert mid[|mid| - 2..] == [mid[|mid| - 2], mid[|mid| - 1]];
    } else {
      assert core == mid;
      assert mid[|mid| - 1..] == [mid[|mid| - 1]];
    }
  }

  /** A base URL with at most one trailing slash keeps none. */
  lemma BaseHasNoTrailingSlash(urlbase: string)
    requires !EndsWith(urlbase, "//")
    ensures !EndsWith(DropTrailingSlash(urlbase), "/")
  {
    var b := DropTrailingSlash(urlbase);
    if EndsWith(urlbase, "/") && |urlbase| >= 2 {
      var n := |urlbase|;
      assert urlbase[n - 2..] == [urlbase[n - 2], urlbase[n - 1]];
      assert b[|b| - 1..] == [urlbase[n - 2]];
    } else if |b| > 0 {
      assert b[|b| - 1..] == [b[|b| - 1]];
    }
  }

  /** A namespace with at most one slash on each side keeps none. */
  lemma SubpathHasNoEdgeSlashes(sp: Option<string>)
    requires sp.Some? ==> !StartsWith(sp.value, "//") && !EndsWith(sp.value, "//")
    ensures !StartsWith(EffectiveSubpath(sp), "/") && !EndsWith(EffectiveSubpath(sp), "/")
  {
    var s := EffectiveSubpath(sp);
    if sp.Some? && DropTrailingSlash(DropLeadingSlash(sp.value)) != "" {
      CoreHasNoEdgeSlashes(sp.value);
    } else {
      assert s == ApiUrlSubpath;
      assert s[0] == 'a' && s[|s| - 1] == 'n';
    }
    assert s[..1] == [s[0]];
    assert s[|s| - 1..] == [s[|s| - 1]];
  }

  /** With at most one slash on each side of the inputs, no join of the URL doubles a slash. */
  lemma ClientJoinsHaveSingleSlashes(urlbase: string, apikey: string, sp: Option<string>)
    requires !EndsWith(urlbase, "//")
    requires sp.Some? ==> !StartsWith(sp.value, "//") && !EndsWith(sp.value, "//")
    ensures var c := NewApiClient(urlbase, apikey, sp);
      && !EndsWith(c.urlbase, "/")
      && !StartsWith(c.actionSubpath, "/")
      && !EndsWith(c.actionSubpath, "/")
  {
    BaseHasNoTrailingSlash(urlbase);
    SubpathHasNoEdgeSlashes(sp);
  }

  /** The test's expectation: the default namespace under `http://localhost`. */
  lemma DefaultActionUrl()
    ensures BuildActionUrl(NewApiClient("http://localhost", "*secret*"), "group_list")
         == "http://localhost/api/3/action/group_list"
  {
  }

  datatype Method = Get | Post

  /** The HTTP request the client issues; `body` is the JSON-encoded payload of a POST. */
  datatype Request = Request(verb: Method, url: string, headers: map<string, string>, body: Option<Value>)

  /** The HTTP transport: an oracle giving the decoded JSON response, or the failure
      raised for a request (connection error or non-2xx status). */
  type Transport = Request -> Result<Value, Error>

  const JsonContentType := "application/json; charset=utf8"

  /** The request rule of `ApiClient.__call__`: every request carries the API key; a POST
      needs a payload, carries it and adds the JSON content type; a GET ignores `data`. */
  function BuildRequest(c: ApiClient, action: string, data: Value, asGet: bool): (r: Result<Request, Error>)
    ensures r.Err? <==> !asGet && data == Null
    ensures r.Err? ==> r.error.AssertionError?
    ensures r.Ok? ==> r.value.url == BuildActionUrl(c, action)
    ensures r.Ok? ==> r.value.verb == (if asGet then Get else Post)
    ensures r.Ok? ==> "Authorization" in r.value.headers && r.value.headers["Authorization"] == c.apikey
    ensures r.Ok? ==> ("Content-Type" in r.value.headers <==> !asGet)
    ensures r.Ok? && !asGet ==> r.value.headers["Content-Type"] == JsonContentType
    ensures r.Ok? ==> r.value.headers.Keys <= {"Authorization", "Content-Type"}
    ensures r.Ok? ==> r.value.body == (if asGet then None else Some(data))
  {
    var url := BuildActionUrl(c, action);
    var headers := map["Authorization" := c.apikey];
    if asGet then Ok(Request(Get, url, headers, None))
    else if data == Null then Err(AssertionError("Payload required for making a POST request"))
    else Ok(Request(Post, url, headers["Content-Type" := JsonContentType], Some(data)))
  }

  /** `client(action_name, data=None, as_get=True)`: the transport's answer to the built
      request, or the assertion failure raised before any request is issued. */
  function Call(c: ApiClient, transport: Transport, action: string, data: Value := Null, asGet: bool := true): (r: Result<Value, Error>)
    ensures !asGet && data == Null ==> r.Err? && r.error.AssertionError?
    ensures asGet || data != Null ==> r == transport(BuildRequest(c, action, data, asGet).value)
  {
    var request :- BuildRequest(c, action, data, asGet);
    transport(request)
  }

  /** A POST without a payload fails the same way whatever the transport would answer:
      no request is issued. */
  lemma PostWithoutPayloadIssuesNoRequest(c: ApiClient, t1: Transport, t2: Transport, action: string)
    ensures Call(c, t1, action, Null, false) == Call(c, t2, action, Null, false)
  {
  }

  /** A GET sends the same request whatever payload is passed. */
  lemma GetIgnoresPayload(c: ApiClient, t: Transport, action: string, d1: Value, d2: Value)
    ensures Call(c, t, action, d1, true) == Call(c, t, action, d2, true)
  {
  }

  /** The configuration tests: a `Config` built without a name has none; a given name is kept. */
  lemma ConfigName(urlbase: string, apikey: string, name: string)
    ensures Config(Some(urlbase), Some(apikey)).name == None
    ensures Config(Some(urlbase), Some(apikey), Some(name)).name == Some(name)
  {
  }
}

=== FILE: datasets.dfy ===
/** `DatasetCommand` of `ckanta/deprecated/actions.py` and the selection step of its
    `dataset dump` command, over the older client's `post(action, payload)`. */
module Datasets {
  import opened Wrappers
  import opened Errors
  import opened Json
  import opened Sorting
  import opened Organizations

  /** `list()`: the names of every dataset, as `{'data': result['result']}`. */
  function DatasetList(post: Poster): (r: Result<Value, Error>)
    ensures var reply := post("package_list", Object(map[]));
      && (r.Ok? <==> reply.Ok? && Unwrap(reply.value).Ok?)
      && (reply.Err? ==> r == Err(reply.error))
      && (r.Ok? ==> r.value == Object(map["data" := Unwrap(reply.value).value]))
  {
    match post("package_list", Object(map[]))
    case Err(e) => Err(e)
    case Ok(reply) =>
      match Unwrap(reply)
      case Err(e) => Err(e)
      case Ok(names) => Ok(Object(map["data" := names]))
  }

  /** The fields `show` drops from a dataset record. */
  const StrippedFields: seq<string> := ["resources", "num_resources", "num_tags", "revision_id", "license_url"]

  /** The `for field in exclude_fields: record.pop(field, None)` loop, one key at a time. */
  function PopAll(m: map<string, Value>, keys: seq<string>): map<string, Value>
    decreases |keys|
  {
    if keys == [] then m else PopAll(m - {keys[0]}, keys[1..])
  }

  /** Popping a list of keys removes exactly those keys, whether present or not, and keeps
      every other entry as it was. */
  lemma {:induction false} PopAllRemovesExactly(m: map<string, Value>, keys: seq<string>)
    ensures forall k :: k in PopAll(m, keys) <==> k in m && k !in keys
    ensures forall k :: k in PopAll(m, keys) ==> PopAll(m, keys)[k] == m[k]
    decreases |keys|
  {
    if keys != [] {
      PopAllRemovesExactly(m - {keys[0]}, keys[1..]);
      assert keys == [keys[0]] + keys[1..];
    }
  }

  /** The record without the stripped fields. */
  function Strip(fields: map<string, Value>): (r: map<string, Value>)
    ensures forall k :: k in r <==> k in fields && k !in StrippedFields
    ensures forall k :: k in r ==> r[k] == fields[k]
  {
    PopAllRemovesExactly(fields, StrippedFields);
    PopAll(fields, StrippedFields)
  }

  /** Stripping a stripped record changes nothing. */
  lemma StripIdempotent(fields: map<string, Value>)
    ensures Strip(Strip(fields)) == Strip(fields)
  {
    var once := Strip(fields);
    assert Strip(once).Keys == once.Keys;
  }

  /** A record that never had the stripped fields comes back unchanged. */
  lemma StripKeepsCleanRecord(fields: map<string, Value>)
    requires forall i :: 0 <= i < |StrippedFields| ==> StrippedFields[i] !in fields
    ensures Strip(fields) == fields
  {
    assert Strip(fields).Keys == fields.Keys;
  }

  /** `show(id)`: the dataset record without the stripped fields, as `{'data': [record]}`.
      A record that is not a dict cannot be popped from and raises a `TypeError`. */
  function DatasetShow(post: Poster, id: string): (r: Result<Value, Error>)
    ensures var reply := post("package_show", Object(map["id" := Str(id)]));
      && (r.Ok? <==> reply.Ok? && Unwrap(reply.value).Ok? && Unwrap(reply.value).value.Object?)
      && (reply.Err? ==> r == Err(reply.error))
      && (r.Ok? ==> r.value == Object(map["data" := Array([Object(Strip(Unwrap(reply.value).value.fields))])]))
  {
    match post("package_show", Object(map["id" := Str(id)]))
    case Err(e) => Err(e)
    case Ok(reply) =>
      match Unwrap(reply)
      case Err(e) => Err(e)
      case Ok(record) =>
        if record.Object? then Ok(Object(map["data" := Array([Object(Strip(record.fields))])]))
        else Err(TypeError("record is not a dict"))
  }

  /** `sorted(names)[offset : offset + limit]`. */
  function DumpSelection(names: seq<string>, offset: int, limit: int): (sel: seq<string>)
    ensures Sorted(sel)
    ensures forall i :: 0 <= i < |sel| ==> sel[i] in names
    ensures 0 <= offset && 0 <= limit ==> |sel| <= limit
    ensures 0 <= offset <= |names| && 0 <= limit ==>
      sel == Sort(names)[offset..if offset + limit <= |names| then offset + limit else |names|]
    ensures |names| <= offset ==> sel == []
  {
    SortedSlice(names, offset, offset + limit)
  }

  /** Two dumps whose windows meet select, together, the one window that spans both. */
  lemma DumpWindowsAdjoin(names: seq<string>, offset: int, limit: int, more: int)
    requires 0 <= offset && 0 <= limit && 0 <= more
    ensures DumpSelection(names, offset, limit) + DumpSelection(names, offset + limit, more)
         == DumpSelection(names, offset, limit + more)
  {
    var mid, end := offset + limit, offset + limit + more;
    SelectionEndsAt(names, offset, limit, mid);
    SelectionEndsAt(names, mid, more, end);
    SelectionEndsAt(names, offset, limit + more, end);
    SortedSlicesAdjoin(names, offset, mid, end);
  }

  /** The selection is the run of sorted names that ends `limit` names after `offset`. */
  lemma SelectionEndsAt(names: seq<string>, offset: int, limit: int, end: int)
    requires end == offset + limit
    ensures DumpSelection(names, offset, limit) == SortedSlice(names, offset, end)
  {
  }

  /** Dumps with the same limit and consecutive offsets never select a name twice: every
      name of the first comes before every name of the second. */
  lemma DumpWindowsOrdered(names: seq<string>, offset: int, limit: int, i: int, j: int)
    requires 0 <= offset && 0 <= limit
    requires 0 <= i < |DumpSelection(names, offset, limit)|
    requires 0 <= j < |DumpSelection(names, offset + limit, limit)|
    ensures LexLe(DumpSelection(names, offset, limit)[i], DumpSelection(names, offset + limit, limit)[j])
  {
    var a := DumpSelection(names, offset, limit);
    DumpWindowsAdjoin(names, offset, limit, limit);
    var whole := DumpSelection(names, offset, limit + limit);
    assert whole[i] == a[i] && whole[|a| + j] == DumpSelection(names, offset + limit, limit)[j];
  }

  /** How `dataset dump` ends before anything is written: the listing failed (logged,
      nothing raised), there was no dataset, or the selected datasets were shown. */
  datatype DumpOutcome = ListFailed(cause: Error) | NoDatasets | Dumped(shown: seq<Value>)

  /** The `dataset dump` command up to the CSV file: list, sort, select the window, show
      each selected dataset in order. A failing `show` is not caught and propagates. */
  function Dump(post: Poster, limit: int := 5, offset: int := 0): (r: Result<DumpOutcome, Error>)
    ensures r.Ok? && r.value.ListFailed? <==> DatasetList(post).Err?
    ensures r.Ok? && r.value.ListFailed? ==> r.value.cause == DatasetList(post).error
    ensures DatasetList(post).Ok? ==>
      var names := NameList(DatasetList(post).value.fields["data"]);
      && (names.Err? ==> r == Err(names.error))
      && (names.Ok? && names.value == [] ==> r == Ok(NoDatasets))
      && (names.Ok? && names.value != [] ==> r == MapShown(post, DumpSelection(names.value, offset, limit)))
  {
    match DatasetList(post)
    case Err(e) => Ok(ListFailed(e))
    case Ok(listed) =>
      match NameList(listed.fields["data"])
      case Err(e) => Err(e)
      case Ok(names) =>
        if names == [] then Ok(NoDatasets)
        else MapShown(post, DumpSelection(names, offset, limit))
  }

  /** `list(map(lambda n: cmd.show(n), names))`, as a dump outcome. */
  function MapShown(post: Poster, names: seq<string>): (r: Result<DumpOutcome, Error>)
    ensures r.Ok? <==> forall i :: 0 <= i < |names| ==> DatasetShow(post, names[i]).Ok?
    ensures r.Ok? ==> r.value.Dumped? && |r.value.shown| == |names|
    ensures r.Ok? ==> forall i :: 0 <= i < |names| ==> r.value.shown[i] == DatasetShow(post, names[i]).value
  {
    match MapResults(names, (n: string) => DatasetShow(post, n))
    case Err(e) => Err(e)
    case Ok(shown) => Ok(Dumped(shown))
  }

  /** A successful dump shows at most `limit` datasets when the window is non-negative, and
      each shown record is stripped. */
  lemma DumpBounded(post: Poster, limit: int, offset: int)
    requires 0 <= offset && 0 <= limit
    requires Dump(post, limit, offset).Ok? && Dump(post, limit, offset).value.Dumped?
    ensures |Dump(post, limit, offset).value.shown| <= limit
    ensures forall i :: 0 <= i < |Dump(post, limit, offset).value.shown| ==>
      var d := Dump(post, limit, offset).value.shown[i];
      && d.Object? && "data" in d.fields && d.fields["data"].Array? && |d.fields["data"].items| == 1
      && d.fields["data"].items[0].Object?
      && forall j :: 0 <= j < |StrippedFields| ==> StrippedFields[j] !in d.fields["data"].items[0].fields
  {
    var listed := DatasetList(post).value;
    var names := NameList(listed.fields["data"]).value;
    var sel := DumpSelection(names, offset, limit);
    assert Dump(post, limit, offset) == MapShown(post, sel);
  }
}

=== FILE: errors.dfy ===
/** The exceptions the client can raise, as values. */
module Errors {
  import opened Wrappers

  datatype Error =
      /** `ConfigError`: a missing configuration section. */
    | ConfigError(message: string)
      /** `CommandError`: a failed command, with the exception it was raised from, if any. */
    | CommandError(message: string, cause: Option<Error>)
      /** A failed Python `assert` guarding a caller's obligation. */
    | AssertionError(message: string)
      /** A dictionary lookup or `pop` of a key that is absent. */
    | KeyError(key: string)
      /** A value of the wrong shape (a non-list where names are sorted, a non-dict indexed by key). */
    | TypeError(message: string)
      /** A failure reported by the HTTP transport (connection error or non-2xx status). */
    | TransportError(message: string)
}

=== FILE: ini.dfy ===
/** A parsed INI configuration as `ConfigParser` presents it after reading. */
module IniFiles {
  import opened Wrappers

  /** Section name to the section's key/value pairs; keys are already in the parser's
      normalised (lower-case) form. */
  type Parsed = map<string, map<string, string>>

  /** The parser's default section: its keys are visible from every other section, and it
      is not listed among the sections. */
  const DefaultSection := "DEFAULT"

  /** `configp.sections()`. */
  function Sections(cfg: Parsed): (r: set<string>)
    ensures DefaultSection !in r
    ensures forall s :: s in r <==> s in cfg && s != DefaultSection
  {
    cfg.Keys - {DefaultSection}
  }

  /** `configp[section].get(key)`: the section's own value, else the default section's,
      else `None`. */
  function Lookup(cfg: Parsed, section: string, key: string): (r: Option<string>)
    requires section in cfg
    ensures key in cfg[section] ==> r == Some(cfg[section][key])
    ensures key !in cfg[section] && DefaultSection in cfg && key in cfg[DefaultSection] ==>
      r == Some(cfg[DefaultSection][key])
    ensures r.None? <==> key !in cfg[section] && (DefaultSection !in cfg || key !in cfg[DefaultSection])
  {
    if key in cfg[section] then Some(cfg[section][key])
    else if DefaultSection in cfg && key in cfg[DefaultSection] then Some(cfg[DefaultSection][key])
    else None
  }
}

=== FILE: json.dfy ===
/** JSON-shaped values: request payloads, decoded responses and CSV-derived records. */
module Json {
  import opened Wrappers
  import opened Errors

  /** `Null` is Python's `None`; `Object` is a `dict` with string keys. */
  datatype Value =
    | Null
    | Bool(b: bool)
    | Int(i: int)
    | Str(s: string)
    | Array(items: seq<Value>)
    | Object(fields: map<string, Value>)

  /** `v[key]` on a decoded response: a `KeyError` when the key is absent and a
      `TypeError` when `v` is not a dict. */
  function Field(v: Value, key: string): (r: Result<Value, Error>)
    ensures r.Ok? <==> v.Object? && key in v.fields
    ensures r.Ok? ==> r.value == v.fields[key]
    ensures r.Err? && v.Object? ==> r.error == KeyError(key)
    ensures r.Err? && !v.Object? ==> r.error.TypeError?
  {
    match v
    case Object(m) => if key in m then Ok(m[key]) else Err(KeyError(key))
    case _ => Err(TypeError("value is not subscriptable by key"))
  }

  /** A list whose every element is a string, read back as the strings. */
  function NameList(v: Value): (r: Result<seq<string>, Error>)
    ensures r.Ok? <==> v.Array? && forall i :: 0 <= i < |v.items| ==> v.items[i].Str?
    ensures r.Ok? ==> |r.value| == |v.items|
    ensures r.Ok? ==> forall i :: 0 <= i < |r.value| ==> v.items[i] == Str(r.value[i])
  {
    if v.Array? && forall i :: 0 <= i < |v.items| ==> v.items[i].Str? then
      Ok(seq(|v.items|, i requires 0 <= i < |v.items| => v.items[i].s))
    else
      Err(TypeError("expected a list of names"))
  }

  /** A dict of strings lifted to a JSON object. */
  function FromStrings(m: map<string, string>): (r: map<string, Value>)
    ensures r.Keys == m.Keys
    ensures forall k :: k in m ==> r[k] == Str(m[k])
  {
    map k | k in m :: Str(m[k])
  }
}

=== FILE: organizations.dfy ===
/** `OrganizationCommand` and `OrganizationDownloader` of `ckanta/actions.py`, with the
    identical copy in `ckanta/deprecated/actions.py`, and the payload step of the
    `organization upload` command. They talk to the portal through the older client's
    `post(action, payload)`. */
module Organizations {
  import opened Wrappers
  import opened Errors
  import opened Json
  import opened Sorting

  /** The older client's `post(action, payload)`: the HTTP exchange and the decoding of
      its JSON reply are an oracle that answers with the reply or the raised error. */
  type Poster = (string, Value) -> Result<Value, Error>

  const DefaultPageSize := 5

  /** The payload of every list request. */
  const AllFieldsFalse := Object(map["all_fields" := Bool(false)])

  /** `result['result']`: the portal's answer inside the reply envelope. */
  function Unwrap(reply: Value): (r: Result<Value, Error>)
    ensures r.Ok? <==> reply.Object? && "result" in reply.fields
    ensures r.Ok? ==> r.value == reply.fields["result"]
  {
    Field(reply, "result")
  }

  /** A command bound to one kind of organisation. */
  datatype OrganizationCommand = OrganizationCommand(orgType: string, isGroup: bool)

  /** `OrganizationCommand(api_client, is_group)`. */
  function NewOrganizationCommand(isGroup: bool): (cmd: OrganizationCommand)
    ensures cmd.isGroup == isGroup
    ensures cmd.orgType == "group" <==> isGroup
    ensures cmd.orgType == "organization" <==> !isGroup
  {
    OrganizationCommand(if isGroup then "group" else "organization", isGroup)
  }

  function ListAction(cmd: OrganizationCommand): string {
    cmd.orgType + "_list"
  }

  function ShowAction(cmd: OrganizationCommand): string {
    cmd.orgType + "_show"
  }

  function CreateAction(cmd: OrganizationCommand): string {
    cmd.orgType + "_create"
  }

  /** Every action is named after the command's kind of organisation. */
  lemma ActionsFollowType(isGroup: bool)
    ensures var cmd := NewOrganizationCommand(isGroup);
      && ListAction(cmd) == (if isGroup then "group_list" else "organization_list")
      && ShowAction(cmd) == (if isGroup then "group_show" else "organization_show")
      && CreateAction(cmd) == (if isGroup then "group_create" else "organization_create")
  {
  }

  /** The flags a bare `show` turns off. */
  const IncludeFlags: seq<string> := ["include_users", "include_groups", "include_tags", "include_followers"]

  /** The `show` payload: the id, and the four `include_*` flags set to `False` when bare. */
  function ShowPayload(id: string, bare: bool): (p: Value)
    ensures p.Object? && "id" in p.fields && p.fields["id"] == Str(id)
    ensures forall k :: k in p.fields <==> k == "id" || (bare && k in IncludeFlags)
    ensures bare ==> forall i :: 0 <= i < |IncludeFlags| ==> IncludeFlags[i] in p.fields && p.fields[IncludeFlags[i]] == Bool(false)
  {
    assert forall i :: 0 <= i < |IncludeFlags| ==> |IncludeFlags[i]| > 2;
    var flags := map k | k in IncludeFlags :: Bool(false);
    if bare then Object(flags["id" := Str(id)]) else Object(map["id" := Str(id)])
  }

  /** `show(id, bare)`: the record the portal returns, as `{'data': [record]}`. */
  function Show(cmd: OrganizationCommand, post: Poster, id: string, bare: bool := true): (r: Result<Value, Error>)
    ensures var reply := post(ShowAction(cmd), ShowPayload(id, bare));
      && (r.Ok? <==> reply.Ok? && Unwrap(reply.value).Ok?)
      && (reply.Err? ==> r == Err(reply.error))
      && (r.Ok? ==> r.value == Object(map["data" := Array([Unwrap(reply.value).value])]))
  {
    match post(ShowAction(cmd), ShowPayload(id, bare))
    case Err(e) => Err(e)
    case Ok(reply) =>
      match Unwrap(reply)
      case Err(e) => Err(e)
      case Ok(record) => Ok(Object(map["data" := Array([record])]))
  }

  /** `list(map(lambda n: self.show(n), names))`: the names are shown in order and the first
      failure is raised. */
  function ShowAll(cmd: OrganizationCommand, post: Poster, names: seq<string>): Result<seq<Value>, Error> {
    MapResults(names, (n: string) => Show(cmd, post, n))
  }

  /** `page_no or 1`. */
  function EffectivePageNo(pageNo: int): (r: int)
    ensures r != 0
    ensures pageNo != 0 ==> r == pageNo
  {
    if pageNo == 0 then 1 else pageNo
  }

  /** `page_size or DEFAULT_PAGE_SIZE`. */
  function EffectivePageSize(pageSize: int): (r: int)
    ensures r != 0
    ensures pageSize != 0 ==> r == pageSize
  {
    if pageSize == 0 then DefaultPageSize else pageSize
  }

  /** `offset + (page_no * page_size) - page_size`, with the effective page number and size:
      `offset` plus the sizes of the pages before this one. */
  function PageStart(pageNo: int, pageSize: int, offset: int): int {
    var no := EffectivePageNo(pageNo);
    var size := EffectivePageSize(pageSize);
    offset + no * size - size
  }

  /** `sorted(names)[start_idx: start_idx + page_size]`. */
  function Window(names: seq<string>, pageNo: int, pageSize: int, offset: int): (w: seq<string>)
    ensures Sorted(w)
    ensures |w| <= |names|
    ensures EffectivePageSize(pageSize) > 0 ==> |w| <= EffectivePageSize(pageSize)
    ensures forall i :: 0 <= i < |w| ==> w[i] in names
  {
    var start := PageStart(pageNo, pageSize, offset);
    SortedSlice(names, start, start + EffectivePageSize(pageSize))
  }

  /** A window inside the names is the run of sorted names from its start, cut at the page
      size or at the end. */
  lemma WindowIsSortedRun(names: seq<string>, pageNo: int, pageSize: int, offset: int)
    requires 0 <= PageStart(pageNo, pageSize, offset) <= |names|
    requires EffectivePageSize(pageSize) > 0
    ensures var start := PageStart(pageNo, pageSize, offset);
      var end := start + EffectivePageSize(pageSize);
      Window(names, pageNo, pageSize, offset) == Sort(names)[start..if end <= |names| then end else |names|]
  {
  }

  /** A page is empty exactly when it starts at or past the last name: the pages after
      the last one are empty, and every page before it holds something. */
  lemma WindowEmptyExactlyPastEnd(names: seq<string>, pageNo: int, pageSize: int, offset: int)
    requires PageStart(pageNo, pageSize, offset) >= 0
    requires EffectivePageSize(pageSize) > 0
    ensures Window(names, pageNo, pageSize, offset) == [] <==> PageStart(pageNo, pageSize, offset) >= |names|
  {
    var start := PageStart(pageNo, pageSize, offset);
    WindowFromStart(names, pageNo, pageSize, offset, start, start + EffectivePageSize(pageSize));
  }

  /** The first page starts at the offset. */
  lemma FirstPageStartsAtOffset(pageSize: int, offset: int)
    ensures PageStart(1, pageSize, offset) == offset
    ensures PageStart(0, pageSize, offset) == offset
  {
  }

  /** The next page starts one page size further on. */
  lemma NextPageStart(pageNo: int, pageSize: int, offset: int)
    requires pageNo >= 1
    ensures PageStart(pageNo + 1, pageSize, offset) == PageStart(pageNo, pageSize, offset) + EffectivePageSize(pageSize)
  {
    var size := EffectivePageSize(pageSize);
    assert (pageNo + 1) * size == pageNo * size + size;
  }

  /** From page one on, with a positive size, pages start at or after the offset. */
  lemma PagesStartAfterOffset(pageNo: int, pageSize: int, offset: int)
    requires pageNo >= 1 && pageSize >= 1
    ensures PageStart(pageNo, pageSize, offset) >= offset
  {
    assert pageNo * pageSize >= pageSize by {
      assert (pageNo - 1) * pageSize >= 0;
    }
  }

  /** A window is the slice of the sorted names from its page start, one page size long. */
  lemma WindowFromStart(names: seq<string>, pageNo: int, pageSize: int, offset: int, start: int, end: int)
    requires start == PageStart(pageNo, pageSize, offset)
    requires end == start + EffectivePageSize(pageSize)
    ensures Window(names, pageNo, pageSize, offset) == SortedSlice(names, start, end)
  {
  }

  /** Consecutive pages follow each other in the sorted names, without gap or overlap:
      together they are the one page of twice the size that starts where the first does. */
  lemma ConsecutivePagesAdjoin(names: seq<string>, pageNo: int, pageSize: int, offset: int)
    requires pageNo >= 1 && pageSize >= 1 && offset >= 0
    ensures Window(names, pageNo, pageSize, offset) + Window(names, pageNo + 1, pageSize, offset)
         == Window(names, 1, 2 * pageSize, PageStart(pageNo, pageSize, offset))
  {
    var start := PageStart(pageNo, pageSize, offset);
    var next := PageStart(pageNo + 1, pageSize, offset);
    var end := start + 2 * pageSize;
    PagesStartAfterOffset(pageNo, pageSize, offset);
    NextPageStart(pageNo, pageSize, offset);
    WindowFromStart(names, pageNo, pageSize, offset, start, next);
    WindowFromStart(names, pageNo + 1, pageSize, offset, next, end);
    WindowFromStart(names, 1, 2 * pageSize, start, start, end);
    SortedSlicesAdjoin(names, start, next, end);
  }

  /** The pager echoed back with a page. */
  function Pager(pageNo: int, pageSize: int, offset: int): Value {
    Object(map["no" := Int(pageNo), "size" := Int(pageSize), "offset" := Int(offset)])
  }

  /** `list(simple, page_no, page_size, offset)`: the names the portal lists, as they come in
      simple mode; otherwise one page of their records, in name order, with its pager. */
  function List(cmd: OrganizationCommand, post: Poster, simple: bool, pageNo: int := 1, pageSize: int := 5, offset: int := 0): (r: Result<Value, Error>)
    ensures var reply := post(ListAction(cmd), AllFieldsFalse);
      && (reply.Err? ==> r == Err(reply.error))
      && (reply.Ok? && Unwrap(reply.value).Err? ==> r == Err(Unwrap(reply.value).error))
      && (simple && reply.Ok? && Unwrap(reply.value).Ok? ==>
            r == Ok(Object(map["data" := Unwrap(reply.value).value])))
      && (!simple && r.Ok? ==>
            && reply.Ok? && Unwrap(reply.value).Ok? && NameList(Unwrap(reply.value).value).Ok?
            && var names := NameList(Unwrap(reply.value).value).value;
            var page := ShowAll(cmd, post, Window(names, pageNo, pageSize, offset));
            && page.Ok?
            && r.value == Object(map["data" := Array(page.value),
                                     "pager" := Pager(EffectivePageNo(pageNo), EffectivePageSize(pageSize), offset)]))
    ensures var reply := post(ListAction(cmd), AllFieldsFalse);
      !simple && reply.Ok? && Unwrap(reply.value).Ok? ==>
        var names := NameList(Unwrap(reply.value).value);
        && (names.Err? ==> r == Err(names.error))
        && (names.Ok? ==>
              var page := ShowAll(cmd, post, Window(names.value, pageNo, pageSize, offset));
              && (page.Err? ==> r == Err(page.error))
              && (page.Ok? ==> r.Ok?))
  {
    var reply :- post(ListAction(cmd), AllFieldsFalse);
    var listed :- Unwrap(reply);
    if simple then Ok(Object(map["data" := listed]))
    else
      var names :- NameList(listed);
      var page :- ShowAll(cmd, post, Window(names, pageNo, pageSize, offset));
      Ok(Object(map["data" := Array(page),
                    "pager" := Pager(EffectivePageNo(pageNo), EffectivePageSize(pageSize), offset)]))
  }

  /** A page holds at most `page_size` records, one per name of the window, in name order. */
  lemma ListPageBounded(cmd: OrganizationCommand, post: Poster, pageNo: int, pageSize: int, offset: int)
    requires List(cmd, post, false, pageNo, pageSize, offset).Ok?
    ensures var data := List(cmd, post, false, pageNo, pageSize, offset).value.fields["data"];
      && data.Array?
      && |data.items| == |Window(NameList(Unwrap(post(ListAction(cmd), AllFieldsFalse).value).value).value, pageNo, pageSize, offset)|
      && (EffectivePageSize(pageSize) > 0 ==> |data.items| <= EffectivePageSize(pageSize))
  {
  }

  /** `create(data_dict)`: posted as given to the kind's create action. */
  function Create(cmd: OrganizationCommand, post: Poster, data: Value): Result<Value, Error> {
    post(CreateAction(cmd), data)
  }

  /** A downloader bound to one kind of organisation. */
  datatype Downloader = Downloader(orgType: string)

  /** `OrganizationDownloader(outputfile, type)`: only `group` and `organization` pass the
      assertion. */
  function NewDownloader(orgType: string := "organization"): (r: Result<Downloader, Error>)
    ensures r.Ok? <==> orgType == "group" || orgType == "organization"
    ensures r.Ok? ==> r.value.orgType == orgType
    ensures r.Err? ==> r.error.AssertionError?
  {
    if orgType == "group" || orgType == "organization" then Ok(Downloader(orgType))
    else Err(AssertionError("type must be one of group, organization"))
  }

  /** `OrganizationDownloader.list(apicl)`: the reply to the kind's list action. */
  function DownloaderList(d: Downloader, post: Poster): Result<Value, Error> {
    post(d.orgType + "_list", AllFieldsFalse)
  }

  /** The downloader lists exactly what the command of the same kind lists. */
  lemma DownloaderListsAsCommand(isGroup: bool, post: Poster)
    ensures var d := NewDownloader(if isGroup then "group" else "organization");
      && d.Ok?
      && (DownloaderList(d.value, post).Err? ==> List(NewOrganizationCommand(isGroup), post, true) == Err(DownloaderList(d.value, post).error))
      && (DownloaderList(d.value, post).Ok? && Unwrap(DownloaderList(d.value, post).value).Ok? ==>
            List(NewOrganizationCommand(isGroup), post, true)
              == Ok(Object(map["data" := Unwrap(DownloaderList(d.value, post).value).value])))
  {
  }

  /** The columns of an exported organisation that are not sent back. */
  const ExcludedColumns: seq<string> :=
    ["image_display_url", "package_count", "created", "image_url", "revision_id", "num_followers", "extras"]

  /** The columns an organisation (not a group) sends as `extras`, in this order. */
  const ExtraColumns: seq<string> := ["code", "slogan", "website_url"]

  /** `[{'key': field, 'value': row[field]} for field in fields]`, or the `KeyError` of the
      first missing column. */
  function Extras(row: map<string, string>, fields: seq<string>): (r: Result<seq<Value>, Error>)
    ensures r.Ok? <==> forall i :: 0 <= i < |fields| ==> fields[i] in row
    ensures r.Ok? ==> |r.value| == |fields| && forall i :: 0 <= i < |fields| ==>
      r.value[i] == Object(map["key" := Str(fields[i]), "value" := Str(row[fields[i]])])
    ensures r.Err? ==> exists i :: 0 <= i < |fields| && fields[i] !in row && r.error == KeyError(fields[i])
                                   && forall j :: 0 <= j < i ==> fields[j] in row
  {
    if fields == [] then Ok([])
    else if fields[0] !in row then Err(KeyError(fields[0]))
    else
      assert forall i :: 1 <= i < |fields| ==> fields[i] == fields[1..][i - 1];
      match Extras(row, fields[1..])
      case Err(e) =>
        var k :| 0 <= k < |fields[1..]| && fields[1..][k] !in row && e == KeyError(fields[1..][k])
                 && forall j :: 0 <= j < k ==> fields[1..][j] in row;
        assert fields[k + 1] !in row;
        Err(e)
      case Ok(rest) => Ok([Object(map["key" := Str(fields[0]), "value" := Str(row[fields[0]])])] + rest)
  }

  /** The organisation upload's `data_dict` for one CSV row: every column but the excluded
      ones, plus, for an organisation, the `extras` list. */
  function UploadPayload(row: map<string, string>, isGroup: bool): (r: Result<Value, Error>)
    ensures r.Ok? <==> isGroup || forall i :: 0 <= i < |ExtraColumns| ==> ExtraColumns[i] in row
    ensures r.Ok? ==> r.value.Object?
    ensures r.Ok? ==> forall k :: k in row && k !in ExcludedColumns ==> k in r.value.fields && r.value.fields[k] == Str(row[k])
    ensures r.Ok? ==> forall k :: k in r.value.fields ==> (k in row && k !in ExcludedColumns) || (!isGroup && k == "extras")
    ensures r.Ok? && !isGroup ==> "extras" in r.value.fields && r.value.fields["extras"] == Array(Extras(row, ExtraColumns).value)
  {
    var data := map k | k in row && k !in ExcludedColumns :: Str(row[k]);
    if isGroup then Ok(Object(data))
    else
      match Extras(row, ExtraColumns)
      case Err(e) => Err(e)
      case Ok(extras) =>
        assert "extras" == ExcludedColumns[6];
        Ok(Object(data["extras" := Array(extras)]))
  }

  /** One row of `organization upload`: built, then created. A failed create is logged and
      the loop goes on; a missing extra column raises, and so does a missing `name`, which is
      read again in the `except` branch. The result is whether the create succeeded. */
  function UploadRow(cmd: OrganizationCommand, post: Poster, row: map<string, string>): (r: Result<bool, Error>)
    ensures r.Ok? <==> UploadPayload(row, cmd.isGroup).Ok? && "name" in row
    ensures r.Ok? ==> r.value == Create(cmd, post, UploadPayload(row, cmd.isGroup).value).Ok?
    ensures UploadPayload(row, cmd.isGroup).Ok? && "name" !in row ==> r == Err(KeyError("name"))
  {
    match UploadPayload(row, cmd.isGroup)
    case Err(e) => Err(e)
    case Ok(payload) =>
      var created := Create(cmd, post, payload).Ok?;
      assert forall i :: 0 <= i < |ExcludedColumns| ==> |ExcludedColumns[i]| != 4;
      assert "name" in payload.fields <==> "name" in row;
      if "name" !in payload.fields then Err(KeyError("name")) else Ok(created)
  }

  /** `organization upload` over the rows of the CSV file, in order, up to the first row
      that raises. */
  function Upload(cmd: OrganizationCommand, post: Poster, rows: seq<map<string, string>>): Result<seq<bool>, Error> {
    MapResults(rows, (row: map<string, string>) => UploadRow(cmd, post, row))
  }

  /** A group upload sends no extras, so only a missing `name` can stop it. */
  lemma GroupUploadNeedsOnlyNames(post: Poster, rows: seq<map<string, string>>)
    ensures Upload(NewOrganizationCommand(true), post, rows).Ok? <==> forall i :: 0 <= i < |rows| ==> "name" in rows[i]
  {
    var cmd := NewOrganizationCommand(true);
    forall i | 0 <= i < |rows| ensures UploadRow(cmd, post, rows[i]).Ok? <==> "name" in rows[i] {
      assert UploadPayload(rows[i], true).Ok?;
    }
  }

  /** An organisation upload also stops at the first row missing `code`, `slogan` or
      `website_url`. */
  lemma OrganizationUploadNeedsExtras(post: Poster, rows: seq<map<string, string>>)
    ensures Upload(NewOrganizationCommand(false), post, rows).Ok? <==>
      forall i :: 0 <= i < |rows| ==> "name" in rows[i] && "code" in rows[i] && "slogan" in rows[i] && "website_url" in rows[i]
  {
    var cmd := NewOrganizationCommand(false);
    forall i | 0 <= i < |rows|
      ensures UploadRow(cmd, post, rows[i]).Ok? <==> "name" in rows[i] && "code" in rows[i] && "slogan" in rows[i] && "website_url" in rows[i]
    {
      assert ExtraColumns[0] == "code" && ExtraColumns[1] == "slogan" && ExtraColumns[2] == "website_url";
    }
  }
}

=== FILE: settings.dfy ===
/** The instance lookup of `ckanta/config.py`. */
module Settings {
  import opened Wrappers
  import opened Errors
  import opened IniFiles

  /** `Config(urlbase, apikey)`: a value the section lacks is `None`. */
  datatype Config = Config(urlbase: Option<string>, apikey: Option<string>)

  const DefaultInstance := "local"
  const InstancePrefix := "instance:"

  /** `section_name in cfgp`: the sections plus the parser's default section. */
  predicate Known(cfg: Parsed, section: string) {
    section in Sections(cfg) || section == DefaultSection
  }

  /** `get_instance(cfgp, name='local')`: the `instance:<name>` section's `urlbase` and
      `apikey`; an unknown instance raises `ConfigError`, a missing key reads as `None`. */
  function GetInstance(cfg: Parsed, name: string := DefaultInstance): (r: Result<Config, Error>)
    ensures r.Ok? <==> InstancePrefix + name in cfg
    ensures r.Err? ==> r.error == ConfigError("Config section not found: " + (InstancePrefix + name))
    ensures r.Ok? ==> r.value.urlbase == Lookup(cfg, InstancePrefix + name, "urlbase")
    ensures r.Ok? ==> r.value.apikey == Lookup(cfg, InstancePrefix + name, "apikey")
  {
    var section := InstancePrefix + name;
    assert section != DefaultSection by {
      assert |section| >= |InstancePrefix| > |DefaultSection|;
    }
    if !Known(cfg, section) then Err(ConfigError("Config section not found: " + section))
    else Ok(Config(Lookup(cfg, section, "urlbase"), Lookup(cfg, section, "apikey")))
  }

  /** A section holding both keys reads back exactly its values. */
  lemma KnownInstanceValues(cfg: Parsed, name: string)
    requires InstancePrefix + name in cfg
    requires "urlbase" in cfg[InstancePrefix + name] && "apikey" in cfg[InstancePrefix + name]
    ensures GetInstance(cfg, name)
         == Ok(Config(Some(cfg[InstancePrefix + name]["urlbase"]), Some(cfg[InstancePrefix + name]["apikey"])))
  {
  }

  /** A key missing from the section and from the default section reads as `None`
      instead of failing. */
  lemma MissingKeyIsNone(cfg: Parsed, name: string)
    requires InstancePrefix + name in cfg
    requires "apikey" !in cfg[InstancePrefix + name]
    requires DefaultSection !in cfg
    ensures GetInstance(cfg, name).Ok?
    ensures GetInstance(cfg, name).value.apikey == None
  {
  }

  /** The test fixture: `local` and `dev` are known; `x-local` is not. */
  lemma FixtureLookups()
    ensures var cfg: Parsed := map[
        "instance:local" := map["urlbase" := "http://localhost:5000", "apikey" := "29dc8b28d78g923basd43w"],
        "instance:dev" := map["urlbase" := "http://dev.local.io:5000", "apikey" := "29chibads978237dluw072as3"]];
      && GetInstance(cfg) == Ok(Config(Some("http://localhost:5000"), Some("29dc8b28d78g923basd43w")))
      && GetInstance(cfg, "x-local").Err?
  {
    var cfg: Parsed := map[
        "instance:local" := map["urlbase" := "http://localhost:5000", "apikey" := "29dc8b28d78g923basd43w"],
        "instance:dev" := map["urlbase" := "http://dev.local.io:5000", "apikey" := "29chibads978237dluw072as3"]];
    assert InstancePrefix + DefaultInstance == "instance:local";
    assert InstancePrefix + "x-local" !in cfg by {
      assert (InstancePrefix + "x-local")[9] == 'x';
      assert "instance:local"[9] == 'l' && "instance:dev"[9] == 'd';
    }
  }
}

=== FILE: sorting.dfy ===
/** Python's `sorted` on a list of strings, and Python slicing. */
module Sorting {

  /** Python's string order: code points compared left to right, a proper prefix first. */
  predicate LexLe(a: string, b: string)
    decreases |a|
  {
    |a| == 0 || (|b| > 0 && (a[0] < b[0] || (a[0] == b[0] && LexLe(a[1..], b[1..]))))
  }

  lemma {:induction false} LexLeTotal(a: string, b: string)
    ensures LexLe(a, b) || LexLe(b, a)
    decreases |a|
  {
    if |a| > 0 && |b| > 0 && a[0] == b[0] {
      LexLeTotal(a[1..], b[1..]);
    }
  }

  lemma {:induction false} LexLeTransitive(a: string, b: string, c: string)
    requires LexLe(a, b) && LexLe(b, c)
    ensures LexLe(a, c)
    decreases |a|
  {
    if |a| > 0 && a[0] == b[0] && b[0] == c[0] {
      LexLeTransitive(a[1..], b[1..], c[1..]);
    }
  }

  lemma {:induction false} LexLeAntisymmetric(a: string, b: string)
    requires LexLe(a, b) && LexLe(b, a)
    ensures a == b
    decreases |a|
  {
    if |a| > 0 {
      LexLeAntisymmetric(a[1..], b[1..]);
      assert a == [a[0]] + a[1..] && b == [b[0]] + b[1..];
    }
  }

  predicate Sorted(s: seq<string>) {
    forall i, j :: 0 <= i < j < |s| ==> LexLe(s[i], s[j])
  }

  function Insert(x: string, s: seq<string>): (r: seq<string>)
    requires Sorted(s)
    ensures Sorted(r)
    ensures multiset(r) == multiset(s) + multiset{x}
  {
    if s == [] then [x]
    else if LexLe(x, s[0]) then
      assert forall j :: 0 <= j < |s| ==> LexLe(s[0], s[j]) by {
        forall j | 0 <= j < |s| ensures LexLe(s[0], s[j]) {
          if j > 0 { } else { LexLeTotal(s[0], s[0]); }
        }
      }
      assert forall j :: 0 <= j < |s| ==> LexLe(x, s[j]) by {
        forall j | 0 <= j < |s| ensures LexLe(x, s[j]) {
          LexLeTransitive(x, s[0], s[j]);
        }
      }
      [x] + s
    else
      LexLeTotal(x, s[0]);
      var tail := Insert(x, s[1..]);
      assert s == [s[0]] + s[1..];
      assert forall j :: 0 <= j < |tail| ==> LexLe(s[0], tail[j]) by {
        forall j | 0 <= j < |tail| ensures LexLe(s[0], tail[j]) {
          assert tail[j] in multiset(tail);
          if tail[j] != x {
            assert tail[j] in multiset(s[1..]);
            var k :| 0 <= k < |s[1..]| && s[1..][k] == tail[j];
            assert s[k + 1] == tail[j];
          }
        }
      }
      [s[0]] + tail
  }

  /** `sorted(names)`: an ordered permutation of the input. */
  function Sort(s: seq<string>): (r: seq<string>)
    ensures Sorted(r)
    ensures multiset(r) == multiset(s)
    ensures |r| == |s|
  {
    if s == [] then []
    else
      assert s == [s[0]] + s[1..];
      Insert(s[0], Sort(s[1..]))
  }

  lemma SortedHeadFirst(s: seq<string>, k: int)
    requires Sorted(s) && 0 <= k < |s|
    ensures LexLe(s[0], s[k])
  {
    if k == 0 {
      LexLeTotal(s[0], s[0]);
    }
  }

  lemma SortedTail(s: seq<string>)
    requires Sorted(s) && s != []
    ensures Sorted(s[1..])
  {
    forall i, j | 0 <= i < j < |s[1..]|
      ensures LexLe(s[1..][i], s[1..][j])
    {
      assert s[1..][i] == s[i + 1] && s[1..][j] == s[j + 1];
    }
  }

  lemma MultisetCancel(x: string, m: multiset<string>, n: multiset<string>)
    requires multiset{x} + m == multiset{x} + n
    ensures m == n
  {
    forall y ensures m[y] == n[y] {
      assert (multiset{x} + m)[y] == (multiset{x} + n)[y];
    }
  }

  /** The ordered permutation is unique, so `Sort` agrees with Python's `sorted`
      on every input whatever algorithm the interpreter uses. */
  lemma {:induction false} SortedPermutationUnique(a: seq<string>, b: seq<string>)
    requires Sorted(a) && Sorted(b)
    requires multiset(a) == multiset(b)
    ensures a == b
    decreases |a|
  {
    if a != [] {
      assert a[0] in multiset(a);
      assert a[0] in b;
      assert b != [] by { assert multiset(b) != multiset{}; }
      assert b[0] in multiset(b);
      assert b[0] in a;
      var i :| 0 <= i < |b| && b[i] == a[0];
      var j :| 0 <= j < |a| && a[j] == b[0];
      SortedHeadFirst(b, i);
      SortedHeadFirst(a, j);
      LexLeAntisymmetric(a[0], b[0]);
      assert a == [a[0]] + a[1..] && b == [b[0]] + b[1..];
      assert multiset(a) == multiset{a[0]} + multiset(a[1..]);
      assert multiset(b) == multiset{b[0]} + multiset(b[1..]);
      MultisetCancel(a[0], multiset(a[1..]), multiset(b[1..]));
      SortedTail(a);
      SortedTail(b);
      SortedPermutationUnique(a[1..], b[1..]);
    } else {
      assert |b| == |multiset(b)| == 0;
    }
  }

  /** A Python slice bound: negative bounds count from the end, all bounds are clamped. */
  function SliceIndex(i: int, n: nat): (r: nat)
    ensures r <= n
    ensures 0 <= i <= n ==> r == i
    ensures i > n ==> r == n
  {
    if i < 0 then (if n + i < 0 then 0 else n + i)
    else if i > n then n
    else i
  }

  /** `s[lo:hi]` with Python's bound handling. */
  function Slice<T>(s: seq<T>, lo: int, hi: int): (r: seq<T>)
    ensures |r| <= |s|
    ensures 0 <= lo <= |s| && lo <= hi ==> r == s[lo..if hi <= |s| then hi else |s|]
    ensures 0 <= lo && lo <= hi ==> |r| <= hi - lo
    ensures 0 <= hi <= lo ==> r == []
    ensures |s| <= lo ==> r == []
  {
    var a := SliceIndex(lo, |s|);
    var b := SliceIndex(hi, |s|);
    if a < b then s[a..b] else []
  }

  /** Adjacent slices join: `s[a:b] + s[b:c] == s[a:c]` for ordered non-negative bounds. */
  lemma SliceConcat<T>(s: seq<T>, a: int, b: int, c: int)
    requires 0 <= a <= b <= c
    ensures Slice(s, a, b) + Slice(s, b, c) == Slice(s, a, c)
  {
    var n := |s|;
    var a', b', c' := SliceIndex(a, n), SliceIndex(b, n), SliceIndex(c, n);
    assert a' <= b' <= c';
    if a' < b' && b' < c' {
      assert s[a'..b'] + s[b'..c'] == s[a'..c'];
    }
  }

  /** Every slice of an ordered sequence is ordered, and holds only elements of it. */
  lemma SliceOfSorted(s: seq<string>, lo: int, hi: int)
    requires Sorted(s)
    ensures Sorted(Slice(s, lo, hi))
    ensures forall i :: 0 <= i < |Slice(s, lo, hi)| ==> Slice(s, lo, hi)[i] in s
  {
    var a, b := SliceIndex(lo, |s|), SliceIndex(hi, |s|);
    if a < b {
      var w := s[a..b];
      forall i, j | 0 <= i < j < |w| ensures LexLe(w[i], w[j]) {
        assert w[i] == s[a + i] && w[j] == s[a + j];
      }
      forall i | 0 <= i < |w| ensures w[i] in s {
        assert w[i] == s[a + i];
      }
    }
  }

  /** `sorted(names)[lo:hi]`: an ordered run of the names, no longer than the slice bounds allow. */
  function SortedSlice(names: seq<string>, lo: int, hi: int): (r: seq<string>)
    ensures Sorted(r)
    ensures forall i :: 0 <= i < |r| ==> r[i] in names
    ensures |r| <= |names|
    ensures 0 <= lo <= hi ==> |r| <= hi - lo
    ensures 0 <= lo <= |names| && lo <= hi ==> r == Sort(names)[lo..if hi <= |names| then hi else |names|]
    ensures |names| <= lo ==> r == []
  {
    var sorted := Sort(names);
    var r := Slice(sorted, lo, hi);
    SliceOfSorted(sorted, lo, hi);
    assert forall i :: 0 <= i < |r| ==> r[i] in names by {
      forall i | 0 <= i < |r| ensures r[i] in names {
        assert r[i] in multiset(sorted);
      }
    }
    r
  }

  /** Adjacent runs of the sorted names join into the run that spans both. */
  lemma SortedSlicesAdjoin(names: seq<string>, a: int, b: int, c: int)
    requires 0 <= a <= b <= c
    ensures SortedSlice(names, a, b) + SortedSlice(names, b, c) == SortedSlice(names, a, c)
  {
    SliceConcat(Sort(names), a, b, c);
  }
}

=== FILE: strings.dfy ===
/** String helpers standing in for the Python `str` methods the client uses. */
module Strings {

  predicate StartsWith(s: string, prefix: string) {
    |prefix| <= |s| && s[..|prefix|] == prefix
  }

  predicate EndsWith(s: string, suffix: string) {
    |suffix| <= |s| && s[|s| - |suffix|..] == suffix
  }

  /** `s.split(sep)` for a one-character separator: the maximal separator-free pieces. */
  function Split(s: string, sep: char): (parts: seq<string>)
    ensures |parts| >= 1
    ensures forall i :: 0 <= i < |parts| ==> sep !in parts[i]
  {
    if s == [] then [""]
    else if s[0] == sep then
      assert s == [s[0]] + s[1..];
      [""] + Split(s[1..], sep)
    else
      var rest := Split(s[1..], sep);
      assert s == [s[0]] + s[1..];
      [[s[0]] + rest[0]] + rest[1..]
  }

  /** `sep.join(parts)`: the reference definition `Split` is checked against. */
  function Join(parts: seq<string>, sep: char): string {
    if parts == [] then ""
    else if |parts| == 1 then parts[0]
    else parts[0] + [sep] + Join(parts[1..], sep)
  }

  /** Splitting and re-joining loses nothing. */
  lemma {:induction false} JoinSplit(s: string, sep: char)
    ensures Join(Split(s, sep), sep) == s
  {
    if s == [] {
    } else if s[0] == sep {
      JoinSplit(s[1..], sep);
      var rest := Split(s[1..], sep);
      assert Split(s, sep) == [""] + rest;
      assert Join([""] + rest, sep) == "" + [sep] + Join(rest, sep);
      assert s == [sep] + s[1..];
    } else {
      JoinSplit(s[1..], sep);
      var rest := Split(s[1..], sep);
      var parts := Split(s, sep);
      assert parts == [[s[0]] + rest[0]] + rest[1..];
      assert s == [s[0]] + s[1..];
      if |rest| == 1 {
        assert Join(parts, sep) == [s[0]] + rest[0];
      } else {
        assert parts[1..] == rest[1..];
        assert Join(parts, sep) == [s[0]] + rest[0] + [sep] + Join(rest[1..], sep);
        assert Join(rest, sep) == rest[0] + [sep] + Join(rest[1..], sep);
      }
    }
  }

  lemma {:induction false} SplitPrefixed(p: string, t: string, sep: char)
    requires sep !in p
    ensures Split(p + [sep] + t, sep) == [p] + Split(t, sep)
    decreases |p|
  {
    if p == [] {
      assert p + [sep] + t == [sep] + t;
      assert ([sep] + t)[1..] == t;
    } else {
      var s := p + [sep] + t;
      assert s[0] == p[0] && s[1..] == p[1..] + [sep] + t;
      SplitPrefixed(p[1..], t, sep);
      assert [p[0]] + p[1..] == p;
    }
  }

  lemma {:induction false} SplitFree(p: string, sep: char)
    requires sep !in p
    ensures Split(p, sep) == [p]
    decreases |p|
  {
    if p != [] {
      SplitFree(p[1..], sep);
      assert [p[0]] + p[1..] == p;
    }
  }

  /** Joining separator-free pieces and splitting again gives the pieces back. */
  lemma {:induction false} SplitJoin(parts: seq<string>, sep: char)
    requires |parts| >= 1
    requires forall i :: 0 <= i < |parts| ==> sep !in parts[i]
    ensures Split(Join(parts, sep), sep) == parts
  {
    if |parts| == 1 {
      SplitFree(parts[0], sep);
    } else {
      SplitJoin(parts[1..], sep);
      SplitPrefixed(parts[0], Join(parts[1..], sep), sep);
      assert [parts[0]] + parts[1..] == parts;
    }
  }

  /** `s.replace(pattern, '')` for a non-empty pattern: occurrences are removed left to
      right without overlapping. */
  function DeleteAll(s: string, pattern: string): (r: string)
    requires pattern != []
    ensures |r| <= |s|
    decreases |s|
  {
    if |s| < |pattern| then s
    else if s[..|pattern|] == pattern then DeleteAll(s[|pattern|..], pattern)
    else [s[0]] + DeleteAll(s[1..], pattern)
  }

  /** The pattern occurs in `s` starting at index `i`. */
  predicate OccursAt(s: string, pattern: string, i: nat) {
    i + |pattern| <= |s| && s[i..i + |pattern|] == pattern
  }

  /** A string holding no occurrence of the pattern is left unchanged. */
  lemma {:induction false} DeleteAllAbsent(s: string, pattern: string)
    requires pattern != []
    requires forall i: nat :: !OccursAt(s, pattern, i)
    ensures DeleteAll(s, pattern) == s
    decreases |s|
  {
    if |s| >= |pattern| {
      assert !OccursAt(s, pattern, 0);
      assert s[0..|pattern|] == s[..|pattern|];
      forall i: nat
        ensures !OccursAt(s[1..], pattern, i)
      {
        assert !OccursAt(s, pattern, i + 1);
        if i + |pattern| <= |s[1..]| {
          assert s[1..][i..i + |pattern|] == s[i + 1..i + 1 + |pattern|];
        }
      }
      DeleteAllAbsent(s[1..], pattern);
      assert [s[0]] + s[1..] == s;
    }
  }

  /** A leading occurrence of the pattern is removed and the rest is processed as if
      it stood alone. */
  lemma DeleteAllLeading(p: string, t: string)
    requires p != []
    ensures DeleteAll(p + t, p) == DeleteAll(t, p)
  {
    assert (p + t)[..|p|] == p;
    assert (p + t)[|p|..] == t;
  }

  /** A character that does not begin an occurrence is kept, and the rest is processed
      as if it stood alone; with `DeleteAllLeading` this fixes the result everywhere. */
  lemma DeleteAllKeepsNonLeading(c: char, t: string, p: string)
    requires p != []
    requires !StartsWith([c] + t, p)
    ensures DeleteAll([c] + t, p) == [c] + DeleteAll(t, p)
  {
    assert ([c] + t)[1..] == t;
  }

  /** `s.replace(old, new)` for single characters. */
  function ReplaceChar(s: string, from: char, to: char): (r: string)
    ensures |r| == |s|
    ensures forall i :: 0 <= i < |s| ==> r[i] == (if s[i] == from then to else s[i])
  {
    seq(|s|, i requires 0 <= i < |s| => if s[i] == from then to else s[i])
  }

  predicate IsUpper(c: char) { 'A' <= c <= 'Z' }
  predicate IsLower(c: char) { 'a' <= c <= 'z' }
  predicate IsLetter(c: char) { IsUpper(c) || IsLower(c) }

  function ToUpper(c: char): char {
    if IsLower(c) then (c as int - 'a' as int + 'A' as int) as char else c
  }

  function ToLower(c: char): char {
    if IsUpper(c) then (c as int - 'A' as int + 'a' as int) as char else c
  }

  /** `str.title` over ASCII letters: a letter is upper-cased when the character before
      it is not a letter and lower-cased otherwise; other characters are kept. */
  function TitleFrom(s: string, afterLetter: bool): (r: string)
    ensures |r| == |s|
    ensures forall i :: 0 <= i < |s| && !IsLetter(s[i]) ==> r[i] == s[i]
    ensures forall i :: 0 <= i < |s| ==> (IsLetter(r[i]) <==> IsLetter(s[i]))
    ensures forall i :: 0 <= i < |s| && IsLetter(s[i]) ==> ToLower(r[i]) == ToLower(s[i])
    ensures forall i :: 1 <= i < |s| && IsLetter(s[i]) ==>
      (IsUpper(r[i]) <==> !IsLetter(s[i - 1]))
    ensures |s| > 0 && IsLetter(s[0]) ==> (IsUpper(r[0]) <==> !afterLetter)
  {
    if s == [] then []
    else
      var c := s[0];
      var c' := if !IsLetter(c) then c else if afterLetter then ToLower(c) else ToUpper(c);
      [c'] + TitleFrom(s[1..], IsLetter(c))
  }

  function Title(s: string): (r: string)
    ensures |r| == |s|
  {
    TitleFrom(s, false)
  }

  /** Title-casing is idempotent. */
  lemma {:induction false} TitleFromIdempotent(s: string, afterLetter: bool)
    ensures TitleFrom(TitleFrom(s, afterLetter), afterLetter) == TitleFrom(s, afterLetter)
  {
    if s != [] {
      var t := TitleFrom(s, afterLetter);
      assert t[1..] == TitleFrom(s[1..], IsLetter(s[0]));
      TitleFromIdempotent(s[1..], IsLetter(s[0]));
    }
  }

  lemma TitleIdempotent(s: string)
    ensures Title(Title(s)) == Title(s)
  {
    TitleFromIdempotent(s, false);
  }
}

=== FILE: tables.dfy ===
/** `TableDef` of `ckanta/__init__.py`: the columns shown from API records and their headers. */
module Tables {
  import opened Wrappers
  import opened Errors
  import opened Json
  import opened Strings

  /** The `headers` argument: absent (`None`), one `:`-separated string, or a list. */
  datatype HeaderSpec = NoHeaders | Joined(text: string) | Listed(items: seq<string>)

  datatype TableDef = TableDef(columns: seq<string>, headers: seq<string>)

  /** `TableInfo(headers, values)`: the headers and one row of cells per record. */
  datatype TableInfo = TableInfo(headers: seq<string>, values: seq<seq<Value>>)

  /** `headers or []`, with a string split on `:`. */
  function GivenHeaders(spec: HeaderSpec): (r: seq<string>)
    ensures spec.NoHeaders? ==> r == []
    ensures spec.Joined? && spec.text == "" ==> r == []
    ensures spec.Joined? && spec.text != "" ==> |r| >= 1 && Join(r, ':') == spec.text
    ensures spec.Joined? ==> forall i :: 0 <= i < |r| ==> ':' !in r[i]
    ensures spec.Listed? ==> r == spec.items
  {
    match spec
    case NoHeaders => []
    case Joined(text) =>
      if text == "" then []
      else
        JoinSplit(text, ':');
        Split(text, ':')
    case Listed(items) => items
  }

  /** Truncates the headers to `n` entries or pads them with `''` up to `n`. */
  function Fit(headers: seq<string>, n: nat): (r: seq<string>)
    ensures |r| == n
    ensures forall i :: 0 <= i < n ==> r[i] == (if i < |headers| then headers[i] else "")
  {
    var kept := if |headers| > n then headers[..n] else headers;
    kept + seq(n - |kept|, _ => "")
  }

  /** The header derived from a column name: `_` becomes a space, other non-letters are
      kept, and each letter keeps its identity but is upper-case exactly when it starts a
      word (it is first, or follows a non-letter, an underscore included). */
  function DerivedHeader(column: string): (r: string)
    ensures |r| == |column|
    ensures forall i :: 0 <= i < |r| ==> r[i] != '_'
    ensures forall i :: 0 <= i < |column| && column[i] == '_' ==> r[i] == ' '
    ensures forall i :: 0 <= i < |column| && !IsLetter(column[i]) && column[i] != '_' ==> r[i] == column[i]
    ensures forall i :: 0 <= i < |column| && IsLetter(column[i]) ==>
      IsLetter(r[i]) && ToLower(r[i]) == ToLower(column[i])
    ensures forall i :: 0 <= i < |column| && IsLetter(column[i]) ==>
      (IsUpper(r[i]) <==> i == 0 || !IsLetter(column[i - 1]))
  {
    var spaced := ReplaceChar(column, '_', ' ');
    assert forall i :: 0 <= i < |column| ==> (IsLetter(spaced[i]) <==> IsLetter(column[i]));
    Title(spaced)
  }

  /** Replaces each empty header by the header derived from its column. */
  function FillHeaders(headers: seq<string>, columns: seq<string>): (r: seq<string>)
    requires |headers| == |columns|
    ensures |r| == |columns|
    ensures forall i :: 0 <= i < |columns| && headers[i] != "" ==> r[i] == headers[i]
    ensures forall i :: 0 <= i < |columns| && headers[i] == "" ==> r[i] == DerivedHeader(columns[i])
  {
    if columns == [] then []
    else [if headers[0] != "" then headers[0] else DerivedHeader(columns[0])]
         + FillHeaders(headers[1..], columns[1..])
  }

  /** `TableDef(columns, headers=None)`: one header per column; a non-empty given header
      at the column's position is kept and any other is derived from the column name. */
  function NewTableDef(columns: seq<string>, spec: HeaderSpec := NoHeaders): (t: TableDef)
    ensures t.columns == columns
    ensures |t.headers| == |columns|
    ensures forall i :: 0 <= i < |columns| ==>
      t.headers[i] == (if i < |GivenHeaders(spec)| && GivenHeaders(spec)[i] != ""
                       then GivenHeaders(spec)[i] else DerivedHeader(columns[i]))
  {
    TableDef(columns, FillHeaders(Fit(GivenHeaders(spec), |columns|), columns))
  }

  /** Without a `headers` argument every header is derived from its column. */
  lemma DefaultHeadersDerived(columns: seq<string>)
    ensures forall i :: 0 <= i < |columns| ==> NewTableDef(columns).headers[i] == DerivedHeader(columns[i])
  {
  }

  /** A non-empty column never gets an empty header, and no derived header keeps a `_`. */
  lemma HeadersNonEmpty(columns: seq<string>, spec: HeaderSpec)
    requires forall i :: 0 <= i < |columns| ==> columns[i] != ""
    ensures forall i :: 0 <= i < |columns| ==> NewTableDef(columns, spec).headers[i] != ""
  {
    var t := NewTableDef(columns, spec);
    forall i | 0 <= i < |columns| ensures t.headers[i] != "" {
      assert |DerivedHeader(columns[i])| == |columns[i]| > 0;
    }
  }

  /** Every cell of a projected row: `[record[c] for c in columns]`. */
  predicate Projects(row: seq<Value>, record: map<string, Value>, columns: seq<string>) {
    && |row| == |columns|
    && forall j :: 0 <= j < |columns| ==> columns[j] in record && row[j] == record[columns[j]]
  }

  /** Column `j` of record `i` is the first cell the projection misses: every earlier
      record has every column, and record `i` has the columns before `j`. */
  predicate FirstMissing(columns: seq<string>, records: seq<map<string, Value>>, i: int, j: int) {
    && 0 <= i < |records| && 0 <= j < |columns|
    && columns[j] !in records[i]
    && (forall k, m :: 0 <= k < i && 0 <= m < |columns| ==> columns[m] in records[k])
    && (forall m :: 0 <= m < j ==> columns[m] in records[i])
  }

  /** There is at most one first missing cell. */
  lemma FirstMissingUnique(columns: seq<string>, records: seq<map<string, Value>>, i: int, j: int, i': int, j': int)
    requires FirstMissing(columns, records, i, j) && FirstMissing(columns, records, i', j')
    ensures i == i' && j == j'
  {
  }

  /** `extract_data`: the headers unchanged and one projected row per record, in input
      order; a record lacking a column raises `KeyError` for that column. */
  method ExtractData(t: TableDef, records: seq<map<string, Value>>) returns (r: Result<TableInfo, Error>)
    ensures r.Ok? <==> forall i, j :: 0 <= i < |records| && 0 <= j < |t.columns| ==> t.columns[j] in records[i]
    ensures r.Ok? ==> r.value.headers == t.headers
    ensures r.Ok? ==> |r.value.values| == |records|
    ensures r.Ok? ==> forall i :: 0 <= i < |records| ==> Projects(r.value.values[i], records[i], t.columns)
    ensures r.Err? ==> (exists i, j :: 0 <= i < |records| && 0 <= j < |t.columns| &&
                                       t.columns[j] !in records[i] && r.error == KeyError(t.columns[j]))
    ensures r.Err? ==> exists i, j :: FirstMissing(t.columns, records, i, j) && r.error == KeyError(t.columns[j])
  {
    var table: seq<seq<Value>> := [];
    var i := 0;
    while i < |records|
      invariant 0 <= i <= |records|
      invariant |table| == i
      invariant forall k :: 0 <= k < i ==> Projects(table[k], records[k], t.columns)
    {
      var row: seq<Value> := [];
      var j := 0;
      while j < |t.columns|
        invariant 0 <= j <= |t.columns|
        invariant |row| == j
        invariant forall m :: 0 <= m < j ==> t.columns[m] in records[i] && row[m] == records[i][t.columns[m]]
      {
        var c := t.columns[j];
        if c !in records[i] {
          assert FirstMissing(t.columns, records, i, j);
          return Err(KeyError(c));
        }
        row := row + [records[i][c]];
        j := j + 1;
      }
      table := table + [row];
      i := i + 1;
    }
    return Ok(TableInfo(t.headers, table));
  }
}

=== FILE: upload.dfy ===
/** `UploadCommand` of `ckanta/commands.py`: one `package_create` call per (CSV row,
    owner organisation) pair, summarised as `{total, passed, failed}`. */
module Upload {
  import opened Wrappers
  import opened Errors
  import opened Json
  import opened Strings
  import opened Common
  import opened Commands

  /** A CSV row as `csv.DictReader` yields it: column name to cell text. */
  type Row = map<string, string>

  const NationalKey := "national:"
  const UploadTargets: seq<string> := ["dataset"]

  /** A validated upload command. */
  datatype UploadCommand = UploadCommand(args: Args)

  /** `UploadCommand._validate_action_args`: the object check (only `dataset`, rewritten
      to `package`), then an `infile` that is not `None`. */
  function NewUploadCommand(args: Args): (r: Result<UploadCommand, Error>)
    ensures r.Ok? <==> NamesObject(args) && args["object"].s in UploadTargets && "infile" in args && args["infile"] != Null
    ensures r.Err? ==> r.error.AssertionError?
    ensures r.Ok? ==> "object" in r.value.args && r.value.args["object"] == Str("package") && "infile" in r.value.args
    ensures r.Ok? ==> r.value.args == args["object" := Str("package")]
  {
    var validated :- ValidateObject(UploadTargets, args);
    if "infile" !in args || args["infile"] == Null then Err(AssertionError("'infile' argument expected"))
    else Ok(UploadCommand(validated))
  }

  /** `n.replace('national:', '')`. */
  function NormOrg(org: string): (r: string)
    ensures |r| <= |org|
  {
    DeleteAll(org, NationalKey)
  }

  /** A national organisation name loses its `national:` prefix; a name without any
      `national:` comes through unchanged. */
  lemma NormOrgStripsNationalKey(name: string)
    requires forall i: nat :: !OccursAt(name, NationalKey, i)
    ensures NormOrg(NationalKey + name) == name
    ensures NormOrg(name) == name
  {
    DeleteAllLeading(NationalKey, name);
    DeleteAllAbsent(name, NationalKey);
  }

  /** `row.setdefault(key, value)`: an existing value is never overwritten. */
  function SetDefault(row: Row, key: string, value: string): (r: Row)
    ensures key in r
    ensures r[key] == (if key in row then row[key] else value)
    ensures r - {key} == row - {key}
  {
    if key in row then row else row[key := value]
  }

  /** The row keys the builder touches are pairwise distinct. */
  lemma BuiltKeysDistinct()
    ensures "title" != "type" && "title" != "state" && "title" != "private" && "title" != "name"
    ensures "type" != "state" && "type" != "private" && "type" != "name"
    ensures "state" != "private" && "state" != "name" && "private" != "name"
    ensures "owner_org" != "locations"
    ensures "owner_org" !in {"title", "type", "state", "private", "name"}
    ensures "locations" !in {"title", "type", "state", "private", "name"}
  {
    assert "title"[0] != "state"[0];
    assert "type"[0] != "name"[0];
    assert "state"[0] != "title"[0];
    assert "owner_org"[0] != "locations"[0];
  }

  predicate IsNational(org: string) {
    StartsWith(org, NationalKey)
  }

  /** The title step of `_build_package_payload`: a state organisation's name is put in
      front of the popped title. */
  function Retitled(row: Row, org: string, states: map<string, string>): (r: Row)
    requires "title" in row && (IsNational(org) || org in states)
    ensures "title" in r
    ensures r["title"] == (if IsNational(org) then row["title"] else states[org] + " " + row["title"])
  {
    if IsNational(org) then row else row["title" := states[org] + " " + row["title"]]
  }

  /** The `type`, `state` and `private` defaults, each set only where absent. */
  function FillDefaults(row: Row): (r: Row)
    ensures "type" in r && "state" in r && "private" in r
    ensures r["type"] == (if "type" in row then row["type"] else "dataset")
    ensures r["state"] == (if "state" in row then row["state"] else "active")
    ensures r["private"] == (if "private" in row then row["private"] else "false")
    ensures r - {"type", "state", "private"} == row - {"type", "state", "private"}
  {
    BuiltKeysDistinct();
    SetDefault(SetDefault(SetDefault(row, "type", "dataset"), "state", "active"), "private", "false")
  }

  /** `_build_package_payload(row, orgname)`: the title step, the defaults, then `name`
      set to the slug of the final title where absent. The row's `groups` entry is added by
      `ToPayload`. A missing title raises (`pop` for a state organisation, `slugify(None)`
      for a national one), and so does a state organisation missing from `states`. */
  function BuildPackagePayload(row: Row, org: string, states: map<string, string>, slug: string -> string): (r: Result<Row, Error>)
    ensures r.Ok? <==> "title" in row && (IsNational(org) || org in states)
    ensures r.Ok? ==> "title" in r.value && "name" in r.value
    ensures !IsNational(org) && "title" !in row ==> r == Err(KeyError("title"))
    ensures !IsNational(org) && "title" in row && org !in states ==> r == Err(KeyError(org))
    ensures IsNational(org) && "title" !in row ==> r.Err? && r.error.TypeError?
  {
    if "title" !in row then
      if IsNational(org) then Err(TypeError("slugify() needs a string title")) else Err(KeyError("title"))
    else if !IsNational(org) && org !in states then Err(KeyError(org))
    else
      var defaulted := FillDefaults(Retitled(row, org, states));
      Ok(SetDefault(defaulted, "name", slug(defaulted["title"])))
  }

  /** The built row's title and defaults: the state's name is put in front of the title of
      a state organisation's row, and `type`, `state`, `private` and `name` keep any value
      the row already had. */
  lemma BuiltFields(row: Row, org: string, states: map<string, string>, slug: string -> string)
    requires BuildPackagePayload(row, org, states, slug).Ok?
    ensures var b := BuildPackagePayload(row, org, states, slug).value;
      && b["title"] == (if IsNational(org) then row["title"] else states[org] + " " + row["title"])
      && b["name"] == (if "name" in row then row["name"] else slug(b["title"]))
      && "type" in b && b["type"] == (if "type" in row then row["type"] else "dataset")
      && "state" in b && b["state"] == (if "state" in row then row["state"] else "active")
      && "private" in b && b["private"] == (if "private" in row then row["private"] else "false")
  {
    BuiltKeysDistinct();
  }

  /** The builder touches only `title`, `type`, `state`, `private` and `name`: no other
      cell is changed, added or removed. */
  lemma BuiltFrame(row: Row, org: string, states: map<string, string>, slug: string -> string)
    requires BuildPackagePayload(row, org, states, slug).Ok?
    ensures var b := BuildPackagePayload(row, org, states, slug).value;
      b - {"title", "type", "state", "private", "name"} == row - {"title", "type", "state", "private", "name"}
  {
    var touched := {"title", "type", "state", "private", "name"};
    var retitled := Retitled(row, org, states);
    assert retitled - {"title"} == row - {"title"};
    assert retitled - touched == row - touched;
    var defaulted := FillDefaults(retitled);
    assert defaulted - touched == retitled - touched;
    var b := SetDefault(defaulted, "name", slug(defaulted["title"]));
    assert b - touched == defaulted - touched;
  }

  /** Every other cell of the row is left as it was. */
  lemma BuiltKeepsOtherCells(row: Row, org: string, states: map<string, string>, slug: string -> string, k: string)
    requires BuildPackagePayload(row, org, states, slug).Ok?
    requires k in row && k != "title" && k != "type" && k != "state" && k != "private" && k != "name"
    ensures BuildPackagePayload(row, org, states, slug).value[k] == row[k]
  {
  }

  /** The JSON sent for a built row: its cells, with `groups` set to `[{'name': sector_id or ''}]`. */
  function ToPayload(row: Row): (v: Value)
    ensures v.Object? && "groups" in v.fields
    ensures v.fields["groups"] == Array([Object(map["name" := Str(if "sector_id" in row then row["sector_id"] else "")])])
    ensures forall k :: k in row && k != "groups" ==> k in v.fields && v.fields[k] == Str(row[k])
    ensures v.fields.Keys == row.Keys + {"groups"}
  {
    var sector := if "sector_id" in row then row["sector_id"] else "";
    Object(FromStrings(row)["groups" := Array([Object(map["name" := Str(sector)])])])
  }

  /** `row.setdefault('owner_org', norm(orgname))` and the same for `locations`. */
  function FillOwner(row: Row, org: string): (r: Row)
    ensures "owner_org" in r && "locations" in r
    ensures r["owner_org"] == (if "owner_org" in row then row["owner_org"] else NormOrg(org))
    ensures r["locations"] == (if "locations" in row then row["locations"] else NormOrg(org))
  {
    BuiltKeysDistinct();
    SetDefault(SetDefault(row, "owner_org", NormOrg(org)), "locations", NormOrg(org))
  }

  /** Filling the owner leaves every other cell as it was. */
  lemma FillOwnerKeeps(row: Row, org: string, k: string)
    requires k != "owner_org" && k != "locations"
    ensures k in FillOwner(row, org) <==> k in row
    ensures k in row ==> FillOwner(row, org)[k] == row[k]
  {
  }

  /** The inner loop of `_get_package_payload_factory` for one row: the same row is filled
      and rebuilt for each owner organisation in turn, and each state of it is yielded. */
  function OrgPayloads(row: Row, orgs: seq<string>, states: map<string, string>, slug: string -> string): (r: Result<seq<Row>, Error>)
    ensures r.Ok? ==> |r.value| == |orgs|
    ensures r.Ok? ==> forall i :: 0 <= i < |orgs| ==> "name" in r.value[i] && "title" in r.value[i]
    decreases |orgs|
  {
    if orgs == [] then Ok([])
    else
      match BuildPackagePayload(FillOwner(row, orgs[0]), orgs[0], states, slug)
      case Err(e) => Err(e)
      case Ok(built) =>
        match OrgPayloads(built, orgs[1..], states, slug)
        case Err(e) => Err(e)
        case Ok(rest) => Ok([built] + rest)
  }

  /** One turn of the organisation loop: the built row is yielded, then passed on. */
  lemma OrgPayloadsStep(row: Row, orgs: seq<string>, states: map<string, string>, slug: string -> string)
    requires orgs != []
    requires BuildPackagePayload(FillOwner(row, orgs[0]), orgs[0], states, slug).Ok?
    ensures var built := BuildPackagePayload(FillOwner(row, orgs[0]), orgs[0], states, slug).value;
      var rest := OrgPayloads(built, orgs[1..], states, slug);
      OrgPayloads(row, orgs, states, slug) == if rest.Ok? then Ok([built] + rest.value) else Err(rest.error)
  {
  }

  /** A row's payloads can be built exactly when the row has a title and every owner
      organisation is national or a known state, unless there are no organisations. */
  lemma {:induction false} OrgPayloadsOk(row: Row, orgs: seq<string>, states: map<string, string>, slug: string -> string)
    ensures OrgPayloads(row, orgs, states, slug).Ok? <==>
      orgs == [] || ("title" in row && forall i :: 0 <= i < |orgs| ==> IsNational(orgs[i]) || orgs[i] in states)
    decreases |orgs|
  {
    if orgs != [] {
      var filled := FillOwner(row, orgs[0]);
      assert "title" in filled <==> "title" in row;
      var built := BuildPackagePayload(filled, orgs[0], states, slug);
      if built.Ok? {
        OrgPayloadsOk(built.value, orgs[1..], states, slug);
        assert forall i :: 1 <= i < |orgs| ==> orgs[i] == orgs[1..][i - 1];
      }
    }
  }

  /** Every payload of a row carries the `owner_org` and `locations` of the row, or else of
      the FIRST owner organisation: the row is shared, and `setdefault` never overwrites. */
  lemma {:induction false} PayloadsShareFirstOwner(row: Row, orgs: seq<string>, states: map<string, string>, slug: string -> string)
    requires orgs != []
    requires OrgPayloads(row, orgs, states, slug).Ok?
    ensures var ps := OrgPayloads(row, orgs, states, slug).value;
      forall i :: 0 <= i < |ps| ==>
        && "owner_org" in ps[i] && ps[i]["owner_org"] == (if "owner_org" in row then row["owner_org"] else NormOrg(orgs[0]))
        && "locations" in ps[i] && ps[i]["locations"] == (if "locations" in row then row["locations"] else NormOrg(orgs[0]))
    decreases |orgs|
  {
    BuiltKeysDistinct();
    var filled := FillOwner(row, orgs[0]);
    var built := BuildPackagePayload(filled, orgs[0], states, slug).value;
    BuiltKeepsOtherCells(filled, orgs[0], states, slug, "owner_org");
    BuiltKeepsOtherCells(filled, orgs[0], states, slug, "locations");
    var ps := OrgPayloads(row, orgs, states, slug).value;
    OrgPayloadsStep(row, orgs, states, slug);
    assert ps[1..] == OrgPayloads(built, orgs[1..], states, slug).value;
    if |orgs| > 1 {
      PayloadsShareFirstOwner(built, orgs[1..], states, slug);
    }
    forall i | 0 <= i < |ps|
      ensures "owner_org" in ps[i] && ps[i]["owner_org"] == (if "owner_org" in row then row["owner_org"] else NormOrg(orgs[0]))
      ensures "locations" in ps[i] && ps[i]["locations"] == (if "locations" in row then row["locations"] else NormOrg(orgs[0]))
    {
      if i > 0 {
        assert ps[i] == ps[1..][i - 1];
      }
    }
  }

  /** Two runs of named payloads make one. */
  lemma NamedConcat(first: seq<Row>, rest: seq<Row>)
    requires forall k :: 0 <= k < |first| ==> "name" in first[k]
    requires forall k :: 0 <= k < |rest| ==> "name" in rest[k]
    ensures forall k :: 0 <= k < |first + rest| ==> "name" in (first + rest)[k]
  {
    forall k | 0 <= k < |first + rest| ensures "name" in (first + rest)[k] {
      if k >= |first| {
        assert (first + rest)[k] == rest[k - |first|];
      }
    }
  }

  lemma MulSucc(n: nat, m: nat)
    ensures (n + 1) * m == m + n * m
  {
  }

  /** `_get_package_payload_factory`: the payloads of every row, row by row; nothing when
      there are no owner organisations. */
  function Payloads(rows: seq<Row>, orgs: seq<string>, states: map<string, string>, slug: string -> string): (r: Result<seq<Row>, Error>)
    ensures r.Ok? ==> |r.value| == |rows| * |orgs|
    ensures r.Ok? ==> forall k :: 0 <= k < |r.value| ==> "name" in r.value[k]
    ensures orgs == [] ==> r == Ok([])
  {
    if rows == [] then Ok([])
    else
      assert forall i :: 1 <= i < |rows| ==> rows[i] == rows[1..][i - 1];
      match OrgPayloads(rows[0], orgs, states, slug)
      case Err(e) => Err(e)
      case Ok(first) =>
        match Payloads(rows[1..], orgs, states, slug)
        case Err(e) => Err(e)
        case Ok(rest) =>
          MulSucc(|rows| - 1, |orgs|);
          NamedConcat(first, rest);
          Ok(first + rest)
  }

  /** One turn of the row loop: the row's payloads come first, then the other rows'. */
  lemma PayloadsStep(rows: seq<Row>, orgs: seq<string>, states: map<string, string>, slug: string -> string)
    requires rows != []
    requires Payloads(rows, orgs, states, slug).Ok?
    ensures OrgPayloads(rows[0], orgs, states, slug).Ok? && Payloads(rows[1..], orgs, states, slug).Ok?
    ensures Payloads(rows, orgs, states, slug).value ==
      OrgPayloads(rows[0], orgs, states, slug).value + Payloads(rows[1..], orgs, states, slug).value
  {
  }

  /** Indexing past a first block of `m` payloads lands one block earlier in the rest. */
  lemma BlockIndex(first: seq<Row>, rest: seq<Row>, m: nat, i: nat, j: nat)
    requires |first| == m && 0 < i && j < m
    requires (i - 1) * m + j < |rest|
    ensures i * m + j < |first + rest|
    ensures (first + rest)[i * m + j] == rest[(i - 1) * m + j]
  {
    MulSucc(i - 1, m);
  }

  /** Payload `i * |orgs| + j` of `ps` is the one built for row `i` and its `j`-th owner
      organisation. */
  predicate PairedAt(ps: seq<Row>, rows: seq<Row>, orgs: seq<string>, states: map<string, string>, slug: string -> string, i: nat, j: nat)
    requires i < |rows|
  {
    var own := OrgPayloads(rows[i], orgs, states, slug);
    && own.Ok? && j < |own.value|
    && i * |orgs| + j < |ps|
    && ps[i * |orgs| + j] == own.value[j]
  }

  /** The first row's payloads open the list. */
  lemma PairedAtFirst(rows: seq<Row>, orgs: seq<string>, states: map<string, string>, slug: string -> string, j: nat)
    requires rows != [] && j < |orgs|
    requires Payloads(rows, orgs, states, slug).Ok?
    ensures PairedAt(Payloads(rows, orgs, states, slug).value, rows, orgs, states, slug, 0, j)
  {
    PayloadsStep(rows, orgs, states, slug);
  }

  /** A later row's payloads sit one block of organisations further on than they do among
      the remaining rows. */
  lemma PairedAtLater(rows: seq<Row>, orgs: seq<string>, states: map<string, string>, slug: string -> string, i: nat, j: nat)
    requires 0 < i < |rows| && j < |orgs|
    requires Payloads(rows, orgs, states, slug).Ok?
    requires Payloads(rows[1..], orgs, states, slug).Ok?
    requires PairedAt(Payloads(rows[1..], orgs, states, slug).value, rows[1..], orgs, states, slug, i - 1, j)
    ensures PairedAt(Payloads(rows, orgs, states, slug).value, rows, orgs, states, slug, i, j)
  {
    PayloadsStep(rows, orgs, states, slug);
    assert rows[i] == rows[1..][i - 1];
    BlockIndex(OrgPayloads(rows[0], orgs, states, slug).value, Payloads(rows[1..], orgs, states, slug).value, |orgs|, i, j);
  }

  /** Rows in the outer loop, organisations in the inner one: every (row, organisation)
      pair has its payload at `i * |orgs| + j`. */
  lemma {:induction false} PayloadsPairRowsWithOrgs(rows: seq<Row>, orgs: seq<string>, states: map<string, string>, slug: string -> string)
    requires Payloads(rows, orgs, states, slug).Ok?
    ensures forall i: nat, j: nat :: i < |rows| && j < |orgs| ==>
      PairedAt(Payloads(rows, orgs, states, slug).value, rows, orgs, states, slug, i, j)
    decreases |rows|
  {
    if rows != [] {
      PayloadsStep(rows, orgs, states, slug);
      PayloadsPairRowsWithOrgs(rows[1..], orgs, states, slug);
      forall i: nat, j: nat | i < |rows| && j < |orgs|
        ensures PairedAt(Payloads(rows, orgs, states, slug).value, rows, orgs, states, slug, i, j)
      {
        if i == 0 {
          PairedAtFirst(rows, orgs, states, slug, j);
        } else {
          PairedAtLater(rows, orgs, states, slug, i, j);
        }
      }
    }
  }

  /** The upload fails with the error of the first row whose payloads cannot be built. */
  lemma {:induction false} PayloadsFailAtFirstBadRow(rows: seq<Row>, orgs: seq<string>, states: map<string, string>, slug: string -> string, i: int)
    requires 0 <= i < |rows|
    requires forall k :: 0 <= k < i ==> OrgPayloads(rows[k], orgs, states, slug).Ok?
    requires OrgPayloads(rows[i], orgs, states, slug).Err?
    ensures Payloads(rows, orgs, states, slug) == Err(OrgPayloads(rows[i], orgs, states, slug).error)
    decreases i
  {
    if i > 0 {
      assert forall k :: 1 <= k < |rows| ==> rows[k] == rows[1..][k - 1];
      PayloadsFailAtFirstBadRow(rows[1..], orgs, states, slug, i - 1);
    }
  }

  /** The upload stops at the first row whose payloads cannot be built. */
  lemma {:induction false} PayloadsOkEachRow(rows: seq<Row>, orgs: seq<string>, states: map<string, string>, slug: string -> string)
    ensures Payloads(rows, orgs, states, slug).Ok? <==>
      forall i :: 0 <= i < |rows| ==> OrgPayloads(rows[i], orgs, states, slug).Ok?
    decreases |rows|
  {
    if rows != [] {
      PayloadsOkEachRow(rows[1..], orgs, states, slug);
      assert forall i :: 1 <= i < |rows| ==> rows[i] == rows[1..][i - 1];
    }
  }

  /** The upload's payloads can all be built exactly when every row has a title and every
      owner organisation is national or a known state, unless there is nothing to build. */
  lemma PayloadsOk(rows: seq<Row>, orgs: seq<string>, states: map<string, string>, slug: string -> string)
    ensures Payloads(rows, orgs, states, slug).Ok? <==>
      || rows == []
      || orgs == []
      || ((forall i :: 0 <= i < |rows| ==> "title" in rows[i])
          && forall j :: 0 <= j < |orgs| ==> IsNational(orgs[j]) || orgs[j] in states)
  {
    PayloadsOkEachRow(rows, orgs, states, slug);
    forall i | 0 <= i < |rows| {
      OrgPayloadsOk(rows[i], orgs, states, slug);
    }
  }

  /** The row built for the first of two organisations, then for the second. */
  function FirstBuilt(row: Row, a: string, states: map<string, string>, slug: string -> string): Row
    requires "title" in row && (IsNational(a) || a in states)
  {
    BuiltKeysDistinct();
    FillOwnerKeeps(row, a, "title");
    BuildPackagePayload(FillOwner(row, a), a, states, slug).value
  }

  function SecondBuilt(row: Row, a: string, b: string, states: map<string, string>, slug: string -> string): Row
    requires "title" in row && (IsNational(a) || a in states) && (IsNational(b) || b in states)
  {
    var built := FirstBuilt(row, a, states, slug);
    BuiltKeysDistinct();
    FillOwnerKeeps(built, b, "title");
    BuildPackagePayload(FillOwner(built, b), b, states, slug).value
  }

  lemma TwoOrgs(row: Row, a: string, b: string, states: map<string, string>, slug: string -> string)
    requires "title" in row && (IsNational(a) || a in states) && (IsNational(b) || b in states)
    ensures OrgPayloads(row, [a, b], states, slug) == Ok([FirstBuilt(row, a, states, slug), SecondBuilt(row, a, b, states, slug)])
  {
    assert [a, b][0] == a && [a, b][1..] == [b];
    assert [b][0] == b && [b][1..] == [];
    var built := FirstBuilt(row, a, states, slug);
    FillOwnerKeeps(row, a, "title");
    FillOwnerKeeps(built, b, "title");
    assert OrgPayloads(SecondBuilt(row, a, b, states, slug), [], states, slug) == Ok([]);
    var second := SecondBuilt(row, a, b, states, slug);
    OrgPayloadsStep(built, [b], states, slug);
    assert OrgPayloads(built, [b], states, slug) == Ok([second] + []);
    assert [second] + [] == [second];
    OrgPayloadsStep(row, [a, b], states, slug);
    assert OrgPayloads(row, [a, b], states, slug) == Ok([built] + [second]);
    assert [built] + [second] == [built, second];
  }

  /** Two state organisations share one row: the second payload keeps the `owner_org` and
      the `name` set for the first. */
  lemma SecondOrgKeepsFirstOwner(row: Row, a: string, b: string, states: map<string, string>, slug: string -> string)
    requires "title" in row && "owner_org" !in row && "name" !in row
    requires a in states && b in states
    requires !IsNational(a) && !IsNational(b)
    ensures var r := OrgPayloads(row, [a, b], states, slug);
      && r.Ok?
      && "owner_org" in r.value[1] && r.value[1]["owner_org"] == NormOrg(a)
      && r.value[1]["name"] == r.value[0]["name"] == slug(states[a] + " " + row["title"])
  {
    BuiltKeysDistinct();
    TwoOrgs(row, a, b, states, slug);
    var filled := FillOwner(row, a);
    FillOwnerKeeps(row, a, "title");
    FillOwnerKeeps(row, a, "name");
    BuiltFields(filled, a, states, slug);
    BuiltKeepsOtherCells(filled, a, states, slug, "owner_org");
    var built := FirstBuilt(row, a, states, slug);
    var filled2 := FillOwner(built, b);
    FillOwnerKeeps(built, b, "title");
    FillOwnerKeeps(built, b, "name");
    BuiltFields(filled2, b, states, slug);
    BuiltKeepsOtherCells(filled2, b, states, slug, "owner_org");
  }

  /** ... and its title carries both state names, the second in front. */
  lemma SecondOrgTitlePrefixedTwice(row: Row, a: string, b: string, states: map<string, string>, slug: string -> string)
    requires "title" in row
    requires a in states && b in states
    requires !IsNational(a) && !IsNational(b)
    ensures var r := OrgPayloads(row, [a, b], states, slug);
      && r.Ok?
      && r.value[1]["title"] == states[b] + " " + (states[a] + " " + row["title"])
  {
    BuiltKeysDistinct();
    TwoOrgs(row, a, b, states, slug);
    var filled := FillOwner(row, a);
    FillOwnerKeeps(row, a, "title");
    BuiltFields(filled, a, states, slug);
    var built := FirstBuilt(row, a, states, slug);
    var filled2 := FillOwner(built, b);
    FillOwnerKeeps(built, b, "title");
    BuiltFields(filled2, b, states, slug);
  }

  /** An upload's result: one `+ name` / `x name` line per payload and the counts. */
  datatype Report = Report(lines: seq<string>, total: int, passed: int, failed: int)

  /** The create call for one payload: `api.call(action, payload, as_get=False)`. */
  function Poster(c: ApiClient, transport: Transport, action: string): Row -> Result<Value, Error> {
    p => Call(c, transport, action, ToPayload(p), false)
  }

  /** `payload.get('name', '?')`. */
  function NameOf(p: Row): string {
    if "name" in p then p["name"] else "?"
  }

  function Line(ok: bool, p: Row): string {
    (if ok then "+ " else "x ") + NameOf(p)
  }

  /** The number of payloads whose create call succeeds. */
  function CountPassed(post: Row -> Result<Value, Error>, ps: seq<Row>): (n: nat)
    ensures n <= |ps|
  {
    if ps == [] then 0
    else CountPassed(post, ps[..|ps| - 1]) + (if post(ps[|ps| - 1]).Ok? then 1 else 0)
  }

  /** The number of payloads whose create call fails, counted independently. */
  function CountFailed(post: Row -> Result<Value, Error>, ps: seq<Row>): nat {
    if ps == [] then 0
    else (if post(ps[0]).Ok? then 0 else 1) + CountFailed(post, ps[1..])
  }

  /** Every payload is counted exactly once, as passed or as failed. */
  lemma {:induction false} PassedPlusFailed(post: Row -> Result<Value, Error>, ps: seq<Row>)
    ensures CountPassed(post, ps) + CountFailed(post, ps) == |ps|
    decreases |ps|
  {
    if ps != [] {
      var n := |ps|;
      PassedPlusFailed(post, ps[1..]);
      if n > 1 {
        PassedPlusFailed(post, ps[..n - 1]);
        PassedPlusFailed(post, ps[1..n - 1]);
        assert ps[1..][..n - 2] == ps[1..n - 1];
        assert ps[..n - 1][1..] == ps[1..n - 1];
        assert ps[1..][n - 2] == ps[n - 1];
        assert ps[..n - 1][0] == ps[0];
      }
    }
  }

  /** The loop of `UploadCommand.execute`: every payload is posted, and a failed create is
      recorded as an `x` line without stopping the loop. */
  method RunBatch(post: Row -> Result<Value, Error>, ps: seq<Row>) returns (rep: Report)
    ensures |rep.lines| == |ps| && rep.total == |ps|
    ensures forall i :: 0 <= i < |ps| ==> rep.lines[i] == Line(post(ps[i]).Ok?, ps[i])
    ensures rep.passed == CountPassed(post, ps)
    ensures rep.failed == rep.total - rep.passed
  {
    var passed := 0;
    var lines: seq<string> := [];
    var i := 0;
    while i < |ps|
      invariant 0 <= i <= |ps|
      invariant |lines| == i
      invariant forall k :: 0 <= k < i ==> lines[k] == Line(post(ps[k]).Ok?, ps[k])
      invariant passed == CountPassed(post, ps[..i])
    {
      var outcome := post(ps[i]);
      assert ps[..i + 1][..i] == ps[..i];
      lines := lines + [Line(outcome.Ok?, ps[i])];
      if outcome.Ok? {
        passed := passed + 1;
      }
      i := i + 1;
    }
    assert ps[..|ps|] == ps;
    var total := |lines|;
    rep := Report(lines, total, passed, total - passed);
  }

  /** `owner_orgs` popped from the args, `[]` when absent. */
  function OwnerOrgs(args: Args): (r: seq<string>)
    requires "owner_orgs" in args ==> NameList(args["owner_orgs"]).Ok?
    ensures "owner_orgs" !in args ==> r == []
    ensures "owner_orgs" in args ==> r == NameList(args["owner_orgs"]).value
  {
    if "owner_orgs" in args then NameList(args["owner_orgs"]).value else []
  }

  /** `UploadCommand.execute()` over the rows read from `infile`: builder and factory are
      found by the object's name; a payload that cannot be built aborts the upload (it is
      raised outside the per-call `try`); otherwise the summary counts every payload, with
      `passed` the successful creates and `failed` the rest. */
  method Execute(cmd: UploadCommand, rows: seq<Row>, states: map<string, string>, slug: string -> string,
                 c: ApiClient, transport: Transport) returns (r: Result<Report, Error>)
    requires NamesObject(cmd.args)
    requires "owner_orgs" in cmd.args ==> NameList(cmd.args["owner_orgs"]).Ok?
    ensures "infile" !in cmd.args ==> r == Err(KeyError("infile"))
    ensures "infile" in cmd.args && cmd.args["object"].s != "package" ==> r.Err? && r.error.CommandError?
    ensures r.Ok? <==> "infile" in cmd.args && cmd.args["object"].s == "package"
                       && Payloads(rows, OwnerOrgs(cmd.args), states, slug).Ok?
    ensures r.Ok? ==> var ps := Payloads(rows, OwnerOrgs(cmd.args), states, slug).value;
      && r.value.total == |ps|
      && r.value.passed == CountPassed(Poster(c, transport, "package_create"), ps)
      && r.value.failed == CountFailed(Poster(c, transport, "package_create"), ps)
      && |r.value.lines| == |ps|
      && forall i :: 0 <= i < |ps| ==>
           r.value.lines[i] == Line(Call(c, transport, "package_create", ToPayload(ps[i]), false).Ok?, ps[i])
  {
    if "infile" !in cmd.args {
      return Err(KeyError("infile"));
    }
    var target := cmd.args["object"].s;
    if target != "package" {
      return Err(CommandError("Payload builder method not found: _build_" + target + "_payload", None));
    }
    var action := "package_create";
    var payloads := Payloads(rows, OwnerOrgs(cmd.args), states, slug);
    if payloads.Err? {
      return Err(payloads.error);
    }
    var post := Poster(c, transport, action);
    var rep := RunBatch(post, payloads.value);
    PassedPlusFailed(post, payloads.value);
    return Ok(rep);
  }
}

=== FILE: wrappers.dfy ===
/** Failure-compatible wrappers shared by every module of the model. */
module Wrappers {

  /** Python's optional value: `None` or a present value. */
  datatype Option<+T> = None | Some(value: T)

  /** The outcome of an operation that may raise: a value or the raised error. */
  datatype Result<+T, +E> = Ok(value: T) | Err(error: E) {

    predicate IsFailure() {
      Err?
    }

    function PropagateFailure<U>(): Result<U, E>
      requires Err?
    {
      Err(error)
    }

    function Extract(): T
      requires Ok?
    {
      value
    }
  }

  /** `[f(x) for x in xs]` where `f` may raise: every result in order, or the error of the
      first element that fails, the later ones not being evaluated. */
  function MapResults<A, B, E(==)>(xs: seq<A>, f: A -> Result<B, E>): (r: Result<seq<B>, E>)
    ensures r.Ok? <==> forall i :: 0 <= i < |xs| ==> f(xs[i]).Ok?
    ensures r.Ok? ==> |r.value| == |xs| && forall i :: 0 <= i < |xs| ==> r.value[i] == f(xs[i]).value
    ensures r.Err? ==> exists i :: 0 <= i < |xs| && f(xs[i]).Err? && f(xs[i]).error == r.error
                                   && forall j :: 0 <= j < i ==> f(xs[j]).Ok?
  {
    if xs == [] then Ok([])
    else
      assert forall i :: 1 <= i < |xs| ==> xs[i] == xs[1..][i - 1];
      match f(xs[0])
      case Err(e) => Err(e)
      case Ok(first) =>
        match MapResults(xs[1..], f)
        case Err(e) =>
          var k :| 0 <= k < |xs[1..]| && f(xs[1..][k]).Err? && f(xs[1..][k]).error == e
                   && forall j :: 0 <= j < k ==> f(xs[1..][j]).Ok?;
          assert xs[1..][k] == xs[k + 1];
          Err(e)
        case Ok(rest) => Ok([first] + rest)
  }
}
